=== FILE: README.md ===
# wv_file_cleanup in Dafny

A Dafny model of the TYPO3 extension `wv_file_cleanup`. The extension finds
files in the file abstraction layer (FAL) that nothing uses: no reference in
`sys_refindex` or `sys_file_reference`, and no membership in a folder or
category file collection. It moves those files into a `_recycler_` folder
next to them and, after a waiting period, deletes them from there for good.

The model is purely functional. Each PHP class becomes a module of datatypes
and functions. Everything the code asks the framework is a parameter of the
model, and so is everything it asks PHP's runtime:

- file listings and folder trees;
- table rows;
- `preg_match`, `strtotime`, `is_numeric` and `(int)`;
- the success or failure of `createFolder`, `moveTo` and `delete`;
- the clock.

PHP arrays with string keys are ordered sequences of distinct-key entries
(`PhpArray.Array`), and `+=` is the left-biased union `PhpArray.UnionAssign`.
Persistent singletons are explicit values threaded through a run:

- the repository and its collection service (`CommandSupport.State`);
- the facades' static timestamp cache (`FileFacade.TimestampCache`).

The commands return an `Outcome`. It holds how the run ended, the trace of
storage calls (permission switches, recycler creation, moves, deletes), the
files that passed every filter, the count, and the printed failure lines.

| module | file | models |
|---|---|---|
| `Wrappers`, `Seqs`, `Text`, `PhpArray` | `wrappers.dfy`, `seqs.dfy`, `text.dfy`, `php_array.dfy` | Option/Result; `array_filter`, `array_unique`, `array_map`; `explode`, `strrpos`, `trim`, `strtoupper`, `empty`; ordered arrays and `+=` |
| `Resource`, `Database` | `resource.dfy`, `database.dfy` | files, folders, and the rows of `sys_refindex`, `sys_file_reference`, `sys_file`, `sys_file_collection` |
| `FileCollectionService` | `file_collection_service.dfy` | `Classes/Service/FileCollectionService.php` |
| `FileFacade` | `file_facade.dfy` | `Classes/FileFacade.php` |
| `FileRepository` | `file_repository.dfy` | `Classes/Domain/Repository/FileRepository.php` |
| `ResourceStorageListener` | `resource_storage_listener.dfy` | `Classes/Listener/ResourceStorageListener.php` |
| `CommandSupport` | `command_support.dfy` | what the three command classes share: argument parsing, age filters, move and delete loops |
| `CleanupCommand`, `EmptyRecyclerCommand`, `FileCommandController` | `cleanup_command.dfy`, `empty_recycler_command.dfy`, `file_command_controller.dfy` | the console commands and the legacy command controller |
| `CleanupController` | `cleanup_controller.dfy` | folder resolution and `cleanupAction` of the backend module |
| `TranslateViewHelper`, `LanguageLabels` | `translate_view_helper.dfy`, `language_labels.dfy` | label-key rewriting and the label constants |

Where the code settles a question, the model follows the code:

- **Age boundary.** Both commands drop a file from the batch only when its
  effective timestamp is strictly greater than the cutoff (`$fileAge >
  $age`). A file stamped exactly at the cutoff is therefore still moved or
  deleted; a file counts as too new only once it is strictly newer.
- **Missing folder path.** When the folder argument has a numeric prefix and
  no colon, `explode` leaves the folder path `null`. The storage then
  receives it as the empty string, and the model uses `""`.
- **Uncaught exceptions.** The cleanup command catches every `\Exception`
  per file. The empty-recycler command catches only
  `FileOperationErrorException`. Any other exception escapes `execute()`, so
  the remaining files are not tried and the permission flag is not restored.
  The model reports this run as `Aborted`. Calls outside the per-file `try`
  blocks (the storage lookup, `getFolder`, loading the file collections) are
  assumed not to throw; "## Left out" lists them.

## Model

| member | source | states |
|---|---|---|
| `Text.SplitAtFirst` | Classes/Command/CleanupCommand.php:130 | `explode(':', $s, 2)`: the head holds no colon, the tail is absent iff there is no colon, and head + `:` + tail rebuilds the input |
| `Text.SplitAtFirstUnique` | Classes/Command/CleanupCommand.php:130 | any decomposition `head:tail` whose head holds no colon is the one `explode` produces |
| `Text.Trim` | Classes/Controller/CleanupController.php:143 | `trim`: the result is a contiguous slice of the input with only whitespace cut from either end, and nothing left to cut |
| `Text.NatToString` | Classes/Controller/CleanupController.php:450 | the decimal digits of the count, which parse back to the count |
| `Text.AfterLast` | Classes/ViewHelpers/TranslateViewHelper.php:187 | `substr($key, strrpos($key, '/') + 1)`: a slash-free suffix that follows a slash |
| `Text.AfterLastUnique` | Classes/ViewHelpers/TranslateViewHelper.php:187 | whatever follows a slash and holds no slash is that suffix |
| `Seqs.Unique` | Classes/Service/FileCollectionService.php:37-42 | `array_unique`: no duplicates, the same members, never longer |
| `Seqs.UniqueExtends` | Classes/Service/FileCollectionService.php:54 | `array_unique(array_merge($a, $b))` keeps a duplicate-free `$a` as its prefix |
| `Seqs.FilterFilter` | Classes/Domain/Repository/FileRepository.php:83-104 | successive `array_filter` passes equal one pass by the conjunction |
| `Seqs.FilterIsSubsequence` | Classes/Domain/Repository/FileRepository.php:83-104 | `array_filter` keeps the survivors in their original order |
| `PhpArray.UnionAssign` | Classes/Domain/Repository/FileRepository.php:145-147 | `$files += $more`: the old entries stay first and unchanged, and only entries with new keys are appended |
| `PhpArray.UnionAssignGet` | Classes/Domain/Repository/FileRepository.php:145-147 | after `+=`, a key present before keeps its value and any other key takes the right side's |
| `PhpArray.FilterValues` | Classes/Domain/Repository/FileRepository.php:150-157 | `array_filter` on a keyed array keeps exactly the entries whose value passes, keys intact |
| `Resource.DescendantsAreBelow` | Classes/Domain/Repository/FileRepository.php:137 | the recursive folder listing holds exactly the folders somewhere below the root |
| `FileCollectionService.CollectionUidsToLoad` | Classes/Service/FileCollectionService.php:37-42 | the collections to load are the selected folder collections and all category collections, each uid once |
| `FileCollectionService.FolderCollectionUids` | Classes/Service/FileCollectionService.php:66-85 | the uids of exactly the rows the version's folder query selects, with the TYPO3 12 query as written (prefix taken against the bare path) iff the major version is at least 12 |
| `FileCollectionService.CategoryCollectionUids` | Classes/Service/FileCollectionService.php:90-112 | the uids of exactly the rows of type `category` |
| `FileCollectionService.CategoryCollectionsIgnoreScope` | Classes/Service/FileCollectionService.php:90-104 | a category collection is loaded whatever storage and folder are scanned |
| `FileCollectionService.LoadCollections` | Classes/Service/FileCollectionService.php:44-55 | after the loop, the list holds the old uids and every item of every loaded collection; a duplicate-free list stays duplicate-free and keeps its old contents as a prefix |
| `FileCollectionService.Initialize` | Classes/Service/FileCollectionService.php:35-56 | `fileUids` only grows (never reset) and gains exactly the items of the selected collections |
| `FileCollectionService.InitializeMembership` | Classes/Service/FileCollectionService.php:35-61 | after `initialize`, `isFileCollectionFile` holds iff it held before, or a folder collection the version's query (as written) selects lists the file, or a category collection lists it |
| `FileCollectionService.InitializeIdempotent` | Classes/Service/FileCollectionService.php:25-56 | a second `initialize` with the same arguments adds no uid |
| `FileCollectionService.From12AgreesWithBefore12` | Classes/Service/FileCollectionService.php:117-180 | with the prefix taken against `storage:folder`, the TYPO3 12 selection of a combined identifier equals the TYPO3 11 selection of its columns minus the scanned folder itself |
| `FileCollectionService.From12AsWrittenNeverSelects` | Classes/Service/FileCollectionService.php:129-139 | the TYPO3 12 query as written never selects a combined identifier when the scanned path starts with `/` |
| `FileCollectionService.From12LoadsOnlyCategories` | Classes/Service/FileCollectionService.php:117-139 | from TYPO3 12 on, scanning a `/`-rooted folder, `initialize` loads exactly the category collections and no folder collection |
| `FileCollectionService.From12Example` | Classes/Service/FileCollectionService.php:129-139 | scanning `/images/` in storage 1, the collection on `1:/images/gallery/` is missed as written and found when corrected |
| `FileFacade.LastReferenceTimestamp` | Classes/FileFacade.php:244-276 | uid ≤ 0 answers 0 and leaves the cache alone; otherwise the answer is the cached entry, and a missing entry is stored first (0 without a query builder); no other entry changes |
| `FileFacade.LookupsCommute` | Classes/FileFacade.php:244-276 | a lookup through one facade leaves every later lookup's answer as it would have been first |
| `FileFacade.LastReferenceTimestampMemoised` | Classes/FileFacade.php:39-276 | the static cache is shared: a later call for the same uid through any facade answers the stored value and changes nothing |
| `FileFacade.LastReferenceTimestampWithoutQuery` | Classes/FileFacade.php:52-59 | the constructor sets no query builder, so from an all-zero cache every answer and every stored entry is 0 |
| `FileFacade.Extension` | Classes/FileFacade.php:145-148 | the extension upper-cased: same length, no lower-case letter, each letter mapped to its capital, idempotent |
| `FileFacade.ActionPermission` | Classes/FileFacade.php:169-229 | a permission getter is true only when `checkActionPermission` is callable, and then answers that check for its action |
| `FileFacade.NoPermissionsWithoutCheck` | Classes/FileFacade.php:169-229 | without a callable `checkActionPermission` all five getters are false |
| `FileFacade.MetadataUid` | Classes/FileFacade.php:98-111 | 0 unless `_getMetadata` is callable; when it is and the metadata's `uid` is set, that `uid`; a nonzero answer is always the set `uid` |
| `FileFacade.MetadataUidOfResource` | Classes/FileFacade.php:98-111 | facades of the same resource report the same metadata uid, and it is nonzero exactly when `_getMetadata` is callable and yields a set, nonzero `uid` |
| `FileFacade.Call` | Classes/FileFacade.php:284-291 | `__call` answers null iff the resource has no such method, and otherwise forwards the call with its arguments |
| `FileRepository.ReferenceCount` | Classes/Domain/Repository/FileRepository.php:162-205 | the larger of the `sys_refindex` count (excluding `sys_file_metadata`) and the `sys_file_reference` count: at least each, equal to one, 0 iff neither table has a matching row |
| `FileRepository.FindUnusedFile` | Classes/Domain/Repository/FileRepository.php:65-111 | initializes the collection service for the folder, then returns one facade per listed file meeting every unused condition |
| `FileRepository.StagesKeepUnused` | Classes/Domain/Repository/FileRepository.php:83-104 | the three `array_filter` passes in sequence keep exactly the files meeting the single unused condition |
| `FileRepository.FindUnusedFileExact` | Classes/Domain/Repository/FileRepository.php:74-109 | the result is an order-preserving subsequence of the listing, and a listed file is in it iff it is outside `_recycler_`, not processed, unmatched by non-empty deny patterns, unreferenced and not a collection file |
| `FileRepository.UnusedFilesHaveNoReferences` | Classes/Domain/Repository/FileRepository.php:96-99 | every returned file has reference count 0, and both underlying counts are 0 |
| `FileRepository.FindUnusedFileIdempotent` | Classes/Domain/Repository/FileRepository.php:71-104 | scanning the same folder twice reports the same files |
| `FileRepository.NullPatternsAreConfigured` | Classes/Domain/Repository/FileRepository.php:75-80 | `null` deny patterns behave exactly as the configured ones |
| `FileRepository.EmptyPatternsDisableFilters` | Classes/Domain/Repository/FileRepository.php:87-92 | with both patterns empty (`""` or `"0"`), the result does not depend on `preg_match` at all |
| `FileRepository.RecyclerChild` | Classes/Domain/Repository/FileRepository.php:133-135 | the direct child named `_recycler_`, absent iff no child has that name |
| `FileRepository.RecyclerFolders` | Classes/Domain/Repository/FileRepository.php:130-142 | non-recursive: at most the direct `_recycler_` child, present iff one exists; recursive: exactly the folders below named `_recycler_` |
| `FileRepository.MergeFiles` | Classes/Domain/Repository/FileRepository.php:145-147 | the merge keeps the accumulated entries as its prefix, adds only entries of the folders, and holds every key any folder lists |
| `FileRepository.MergeFilesFirstWins` | Classes/Domain/Repository/FileRepository.php:145-147 | a key takes the value from the first folder that lists it |
| `FileRepository.MergeFilesKeeps` | Classes/Domain/Repository/FileRepository.php:145-147 | a key already merged is never overwritten |
| `FileRepository.FindAllFilesInRecyclerFolder` | Classes/Domain/Repository/FileRepository.php:122-160 | every result comes from a selected recycler folder; a merged file is kept iff the effective pattern (`null` means configured) is empty or does not match its name |
| `FileRepository.LastMove` | Classes/Domain/Repository/FileRepository.php:207-220 | 0 when the file has no row, otherwise the row's `last_move` |
| `ResourceStorageListener.PostFileMove` | Classes/Listener/ResourceStorageListener.php:27-40 | only a `File` triggers the update; only its own row changes, and only its `last_move` column, which becomes `now` |
| `ResourceStorageListener.StampIsReadBack` | Classes/Listener/ResourceStorageListener.php:33-38 | after the update, `getLastMove` reads back `now` for the moved file |
| `CommandSupport.ParseFolderArgument` | Classes/Command/CleanupCommand.php:130-136 | without a colon: a numeric argument is a storage uid with the empty path, anything else is a path in storage 1 |
| `CommandSupport.ParseFolderArgumentSplit` | Classes/Command/CleanupCommand.php:130-136 | with a colon: a numeric head selects the storage and the tail is the path; otherwise storage 1 gets the whole argument |
| `CommandSupport.ExitCode` | Classes/Command/CleanupCommand.php:121-203 | `SUCCESS` exactly when the run got to the end; no code when an exception escaped |
| `CommandSupport.Listing` | Classes/Domain/Repository/FileRepository.php:74 | `getFiles(..., $recursive)` lists the folder's own files and, when recursive, those of every folder below |
| `CommandSupport.CleanupAgeFilter` | Classes/Command/CleanupCommand.php:159-168 | keeps, in order, exactly the facades whose last reference timestamp (or modification time when that is 0) is not after the cutoff; the cache only gains entries |
| `CommandSupport.CleanupAgeFilterCache` | Classes/Command/CleanupCommand.php:159-168 | the cache the filter leaves holds, for every listed file with a positive uid, what its first `getLastReferenceTimestamp` answered (the stored reference timestamp, 0 without a query builder), and gains entries only for listed files |
| `CommandSupport.ResourcesKept` | Classes/Command/CleanupCommand.php:159-168 | filtering facades by age filters their files the same way |
| `CommandSupport.KeepOlder` | Classes/Command/EmptyRecyclerCommand.php:131-144 | `unset` of every entry newer than the cutoff keeps exactly the entries at or before it, keys intact |
| `CommandSupport.MoveOne` | Classes/Command/CleanupCommand.php:178-195 | a recycler is reused or created in the parent, never elsewhere; the count rises by one iff a recycler is available and the move succeeds |
| `CommandSupport.MoveInto` | Classes/Command/CleanupCommand.php:191-192 | a move is counted iff it succeeds; the recycler set is unchanged |
| `CommandSupport.MoveBatch` | Classes/Command/CleanupCommand.php:176-197 | the loop only appends to the trace and only adds recyclers |
| `CommandSupport.MoveBatchCount` | Classes/Command/CleanupCommand.php:176-197 | the count is the number of files whose parent has or gets a recycler and whose move succeeds; a failure never stops the loop |
| `CommandSupport.MoveBatchCreatesOnce` | Classes/Command/CleanupCommand.php:184-190 | no recycler is created in a parent that already had one, and at most one is created where creation succeeds |
| `CommandSupport.MoveBatchStamps` | Classes/Command/CleanupCommand.php:191 | moves change no `sys_file` row beyond setting `last_move` to `now` |
| `CommandSupport.DeleteBatch` | Classes/Command/EmptyRecyclerCommand.php:152-163 | only deletes; the count never exceeds the batch; the loop aborts iff some file raises an exception other than a file-operation error |
| `CommandSupport.DeleteBatchCompletes` | Classes/Command/EmptyRecyclerCommand.php:153-162 | without such an exception, every file is tried once in order, the count is the number of successes, and there is one `Failed to remove name [message]` line per operation error |
| `CommandSupport.DeleteBatchAborts` | Classes/Command/EmptyRecyclerCommand.php:153-162 | an escaping exception at the i-th file stops the loop there, after counting the successes before it |
| `CleanupCommand.Defaults` | Classes/Command/CleanupCommand.php:60-97 | age `1 month`, file deny pattern `/index.html/i`, no path deny pattern, not recursive, not dry |
| `CleanupCommand.Run` | Classes/Command/CleanupCommand.php:108-204 | an unparseable age ends the run with no storage call and no state change; the per-file `catch (\Exception)` means no run aborts; no failure lines |
| `CleanupCommand.RunTouchesStorage` | Classes/Command/CleanupCommand.php:138-203 | an unknown folder is reported iff the storage lacks the path; every run past the age check switches permission checks off first and restores the original flag last; nothing moves in a dry run or before the end |
| `CleanupCommand.RunCandidates` | Classes/Command/CleanupCommand.php:151-168 | the batch is exactly the listed files that are unused and not after the cutoff, in listing order |
| `CleanupCommand.RunCount` | Classes/Command/CleanupCommand.php:176-197 | outside a dry run, the count is the number of batch files whose move goes through |
| `CleanupCommand.DryRunMatchesRun` | Classes/Command/CleanupCommand.php:126-197 | a dry run reaches the same verdict, the same batch and the same state as a real run, moves nothing and leaves `sys_file` alone |
| `EmptyRecyclerCommand.Defaults` | Classes/Command/EmptyRecyclerCommand.php:44-78 | age `1 month`, file deny pattern `/index.html/i`, not recursive, not dry |
| `EmptyRecyclerCommand.AgeOf` | Classes/Command/EmptyRecyclerCommand.php:131-136 | the age is `getLastMove()`, or the modification time when that is 0; the legacy age is the modification time alone |
| `EmptyRecyclerCommand.Run` | Classes/Command/EmptyRecyclerCommand.php:83-170 | an unparseable age ends the run with no storage call; the state and `sys_file` stay; an abort happens only outside a dry run, on a batch file with an escaping exception |
| `EmptyRecyclerCommand.RunTouchesStorage` | Classes/Command/EmptyRecyclerCommand.php:110-169 | an unknown folder is reported iff the storage lacks the path; permissions are restored at the end of a finished run or an unknown-folder run, but not after an abort; nothing is deleted in a dry run |
| `EmptyRecyclerCommand.RunCandidates` | Classes/Command/EmptyRecyclerCommand.php:123-144 | the batch is exactly the gathered recycler files whose age is not after the cutoff |
| `EmptyRecyclerCommand.RunCount` | Classes/Command/EmptyRecyclerCommand.php:152-163 | a finished run counts the successful deletes and prints one failure line per operation error, in order |
| `EmptyRecyclerCommand.MovedFileAgesFromMove` | Classes/Command/EmptyRecyclerCommand.php:131-143 | a file the listener stamped at a nonzero `now` is aged from its move and purged iff `now` is not after the cutoff |
| `FileCommandController.Cleanup` | Classes/Command/FileCommandController.php:52-129 | an unparseable age returns without storage calls or state change; the run never aborts |
| `FileCommandController.EmptyRecycler` | Classes/Command/FileCommandController.php:143-214 | an unparseable age returns without storage calls; the state is unchanged |
| `FileCommandController.CleanupUsesConfiguredPathPattern` | Classes/Command/FileCommandController.php:82 | the legacy cleanup passes no path deny pattern and so applies the configured one |
| `FileCommandController.EmptyRecyclerIgnoresLastMove` | Classes/Command/FileCommandController.php:182-191 | which files the legacy purge deletes does not depend on `sys_file` at all |
| `CleanupController.ChosenStorage` | Classes/Controller/CleanupController.php:143-148 | the default storage (possibly none) iff the trimmed head is not an integer and there is no colon; otherwise the storage with uid `(int)` of the trimmed head (possibly none) |
| `CleanupController.IdentifierPart` | Classes/Controller/CleanupController.php:150 | the text after the first colon, or the input without its first character when there is no colon |
| `CleanupController.ResolveFolder` | Classes/Controller/CleanupController.php:139-168 | a falsy `id` takes the other branch; a missing storage (no default storage, or none `findByUid` finds) ends in the uncaught `\Error` of calling `hasFolder` on null; a missing folder is reported before storage 0 is refused; a resolved folder exists and never lies in storage 0 |
| `CleanupController.ResolveCombined` | Classes/Controller/CleanupController.php:143-168 | for `head:tail`: storage by the trimmed head; identifier the tail, or the folder of that file identifier when no such folder exists; a folder that does not exist is reported; then storage 0 is refused; a processing folder becomes the root folder |
| `CleanupController.MoveSelection` | Classes/Controller/CleanupController.php:423-446 | the loop aborts iff some file raises an exception other than a missing file or a write-permission error; all its messages are errors |
| `CleanupController.MoveSelectionCounts` | Classes/Controller/CleanupController.php:423-446 | otherwise the count is the number of successful moves and there is one "not allowed" message per denied folder, in order |
| `CleanupController.CleanupAction` | Classes/Controller/CleanupController.php:418-462 | the action aborts iff some file raises another exception; otherwise the count is the successful moves, the messages are one "not allowed" error per denied folder in order, then one summary: "Moved N files to recycler" when N > 0, else the "No files moved" warning |
| `CleanupController.MovedMessageNamesCount` | Classes/Controller/CleanupController.php:448-451 | "Moved N files to recycler" carries the count as digits that parse back to it |
| `CleanupController.AddFlashMessage` | Classes/Controller/CleanupController.php:475-496 | a message is queued iff the body is a string, with the given body, title and severity; otherwise the error names the body's type |
| `TranslateViewHelper.MainVersion` | Classes/ViewHelpers/TranslateViewHelper.php:186 | the branch string up to its first dot: a dot-free prefix that is the whole string or is followed by a dot |
| `TranslateViewHelper.LangFilesPath` | Classes/ViewHelpers/TranslateViewHelper.php:188-202 | branch 7 and 8 keep `EXT:lang` locations; later branches use `filelist` exactly for files starting with `locallang_mod_file_list.xlf`, and `core` otherwise |
| `TranslateViewHelper.RewriteLegacyKey` | Classes/ViewHelpers/TranslateViewHelper.php:185-207 | keys outside `LLL:EXT:lang/` are untouched; a legacy key becomes `LLL:` + location + file part, and the id follows only when it equalled the key |
| `TranslateViewHelper.RewriteKeepsFile` | Classes/ViewHelpers/TranslateViewHelper.php:187-206 | the rewritten key ends with the same file part |
| `TranslateViewHelper.RewriteIdempotent` | Classes/ViewHelpers/TranslateViewHelper.php:185-207 | rewriting an already rewritten key changes nothing |
| `TranslateViewHelper.RenderStatic` | Classes/ViewHelpers/TranslateViewHelper.php:167-223 | rendering terminates iff the id (defaulting to the key) is empty; otherwise the translation of the rewritten id looked up with the arguments, or, when none is found, the default (else the children), which the helper formats only when arguments are given |
| `TranslateViewHelper.LegacyKeyIsTranslatedAtNewHome` | Classes/ViewHelpers/TranslateViewHelper.php:176-223 | a legacy key without an id is looked up as `LLL:` + the branch's location + its file part; the arguments go to the translation lookup (which formats a label it finds), a translation found is the output, and only a missing one falls back to the default or children, formatted by the helper when arguments are given |
| `TranslateViewHelper.CurrentKeyIsTranslatedAsIs` | Classes/ViewHelpers/TranslateViewHelper.php:176-223 | a key outside `LLL:EXT:lang/` without an id is looked up unchanged, and a translation found is the output |
| `TranslateViewHelper.ExplicitIdIsKept` | Classes/ViewHelpers/TranslateViewHelper.php:203-205 | an id different from the key is never rewritten |
| `LanguageLabels.ControllerLanguageLabelFiles` | Classes/Utility/LanguageLabels.php:28-36 | four distinct files, core first and the extension's own last |
| `LanguageLabels.DisplayThumbsLabel` | Classes/Utility/LanguageLabels.php:38-46 | `displayThumbs` iff the major version is below 12, `labels.view.showThumbnails` iff it is 12 or above |
| `LanguageLabels.LegacyKeysReachLoadedFiles` | Classes/Utility/LanguageLabels.php:28-36 | on TYPO3 9 and later, a legacy `EXT:lang/` key of the core, misc or file-list labels is rewritten into one of the four files the controller loads |

## Left out

- FAL and database internals are inputs, not models: `getFiles`, `getFoldersInFolder`, `hasFolder`, `createFolder`, `moveTo`, `delete`, `getPublicUrl`, `findByUid`, `loadContents`. The query builder's default restrictions (deleted and hidden rows) are left out as well; rows are taken as the query returns them.
- `LIKE` is a plain prefix test: no collation, no case folding, no wildcard escaping. `preg_match`, `strtotime`, `is_numeric`, `canBeInterpretedAsInteger` and `(int)` are oracles. Malformed regular expressions are not modelled.
- `time()` is one value per run. All moves of a run share that value.
- Console output (`verbose`, titles, notes, `date()` formatting) is left out. Only the printed failure lines of the delete loop are kept.
- CleanupController.ResolveFolder: the branch for a falsy `id` (first file mount's root folder) and the later file-mount boundary check (lines 169-182) are reported as `NoIdentifier` and not modelled further. After `FolderNotFound` the catch at lines 193-212 falls back to the first file mount's root folder; that fallback and the read-permission check at lines 222-227 are not modelled. `NullStorage` stands for the `\Error` that line 151 raises when either `getDefaultStorage` or `findByUid` returned null; nothing catches it. The other controller actions, view setup, doc header buttons and flash-queue plumbing are user interface.
- FileFacade.LastReferenceTimestamp: the query branch (lines 256-272) is an abstract lookup. The constructor never sets a query builder, so the branch is unreachable; as written it would index a list of rows by `'tstamp'`.
- FileFacade: `getIcon`, `getSize`, `getLastModified`, `getIsEditable`, `getIsImage`, `getName`, `getPath` and `getPublicUrl` depend on framework formatting and are not modelled.
- The facade is a plain wrapper. `FileRepository.php:107` constructs it with one argument while the constructor takes two, and `FileFacadeFactory.php` passes an icon; that mismatch is not reproduced.
- `Classes/Slot/ResourceStorageSlots.php` performs the same single-row `last_move` update as the listener and is modelled once, as `ResourceStorageListener.PostFileMove`.
- Deleting a file does not remove its `sys_file` row in the model; nothing in the extension reads that row afterwards.
- CleanupCommand.Run: `getStorageObject` (line 138), `getFolder` (line 149) and loading the collections in `findUnusedFile` (declared `@throws` at lines 105-106; `FileRepository.php:63`, `FileCollectionService.php:33`) are assumed not to throw. The storages are a total lookup and collection items always load, so the model has no abort outside the per-file loop.
- EmptyRecyclerCommand.Run: `getStorageObject` (line 110) and `getFolder` (line 121) are assumed not to throw, so `Aborted` arises only from a batch file whose delete raises something other than `FileOperationErrorException`.
- FileCommandController.Cleanup: as for the cleanup command, `getStorageObject` (lines 69 and 160), `getFolder` and collection loading are assumed not to throw, so the legacy run never aborts.
- CleanupCommand.Run: the folder found under the parsed path supplies its own identifier to the collection service; how FAL turns the path into that identifier is whatever the `folders` map holds.
- TranslateViewHelper.RenderStatic: a missing `key` behaves as the empty string, which is what PHP makes of `null` in every use the helper has; `vsprintf` and `translate` are oracles.
- Loose `==` between strings is string equality. This is exact for the id/key comparison, because the compared keys start with `LLL:` and are never numeric strings. The `switch` on the main version (`TranslateViewHelper.php:188-201`) also compares loosely, so a branch such as `07.5` would match case `'7'`; real branch strings (`7.6`, `12.4`) carry no leading zeros or blanks, so exact comparison agrees with it on them.
- Registration, configuration, build and test files check framework versions and extension loading only.

## Findings

| source | as written | input that shows it | evidently intended | confidence | as-written member | corrected member |
|---|---|---|---|---|---|---|
| Classes/Service/FileCollectionService.php:129-139 | From TYPO3 12 the folder-collection query compares `folder_identifier` (a combined `storage:path` value) for inequality with `storage:folder`, but matches it with `LIKE '<folder>%'` using the bare path. | Scanning `1:/images/` with a folder collection whose `folder_identifier` is `1:/images/gallery/`: `'1:/images/gallery/' LIKE '/images/%'` is false, so the collection's files are offered for cleanup. No combined identifier starts with `/`. | The prefix should be the combined `storage:folder`, as the inequality already uses. Then the TYPO3 12 selection agrees with the TYPO3 11 one, except for the scanned folder itself, which the inequality excludes. | medium, not executed | `FileCollectionService.From12AsWrittenNeverSelects` | `FileCollectionService.From12AgreesWithBefore12` |

`FileCollectionService.From12Example` shows both sides on the input above. The model's call chain (`SelectedByFolder`, hence `FindUnusedFile` and the commands) runs the query as written, `SelectedFrom12AsWritten`; `From12LoadsOnlyCategories` states what that means for `initialize`. `SelectedFrom12` is the corrected selection, and `From12AgreesWithBefore12` proves it agrees with the TYPO3 11 query.

=== FILE: cleanup_command.dfy ===
/** The `cleanup` console command: moves the unused files of a folder that
    are old enough into a `_recycler_` folder next to them. */
module CleanupCommand {
  import opened Wrappers
  import opened Seqs
  import opened Resource
  import opened FileFacade
  import opened CommandSupport
  import FileRepository

  /** The command line: the `folder` argument and the five options. An
      option given without a value arrives as `None`. */
  datatype Options = Options(
    folder: string,
    age: Option<string>,
    fileDenyPattern: Option<string>,
    pathDenyPattern: Option<string>,
    recursive: bool,
    dryRun: bool)

  /** The options when only the folder is given. */
  function Defaults(folder: string): (o: Options)
    ensures o.folder == folder && !o.recursive && !o.dryRun && o.pathDenyPattern.None?
    ensures o.age == Some("1 month") && o.fileDenyPattern == Some("/index.html/i")
  {
    Options(folder, Some("1 month"), Some("/index.html/i"), None, false, false)
  }

  /** The age cutoff: `strtotime('-' . age)`; a missing value is the empty string. */
  function Cutoff(env: Environment, age: string): Option<int> {
    env.strtotime("-" + age)
  }

  /** The shared cleanup run: parse the age, find the folder with permission
      checks off, find the unused files, drop the ones newer than the
      cutoff, and (unless dry) move the rest; permission checks are restored
      on every path that reached the storage. */
  function Run(folderArg: string, age: string, fileDenyPattern: Option<string>, pathDenyPattern: Option<string>,
               recursive: bool, dryRun: bool, env: Environment, st: State): (r: Outcome)
    ensures r.report.AgeNotRecognized? <==> Cutoff(env, age).None?
    ensures r.report.AgeNotRecognized? ==> r.effects == [] && r.state == st && r.sysFile == env.host.tables.sysFile
    ensures !r.report.Aborted? && r.lines == []
  {
    match Cutoff(env, age)
    case None => Outcome(AgeNotRecognized, [], [], 0, [], st, env.host.tables.sysFile)
    case Some(cutoff) =>
      var arg := ParseFolderArgument(folderArg, env.isNumeric, env.toInt);
      var storage := env.storages(arg.storageUid);
      var off := [SetEvaluatePermissions(arg.storageUid, false)];
      var restore := SetEvaluatePermissions(arg.storageUid, storage.evaluatePermissions);
      if arg.path !in storage.folders then
        Outcome(UnknownFolder(arg.path, arg.storageUid), off + [restore], [], 0, [], st, env.host.tables.sysFile)
      else
        var folder := storage.folders[arg.path];
        var (unused, repo) := FileRepository.FindUnusedFile(st.repo, env.host, arg.storageUid, folder.identifier,
                                                            Listing(folder, recursive), fileDenyPattern, pathDenyPattern);
        var (kept, cache) := CleanupAgeFilter(st.cache, env.query, unused, cutoff);
        var batch := FileRepository.Resources(kept);
        if dryRun then
          Outcome(Done, off + [restore], batch, 0, [], State(repo, cache), env.host.tables.sysFile)
        else
          var m := MoveBatch(MoveState(0, env.recyclers, env.host.tables.sysFile, off), batch, env.moves);
          Outcome(Done, m.effects + [restore], batch, m.moved, [], State(repo, cache), m.sysFile)
  }

  /** `execute()`: the run for the given command line. */
  function Execute(o: Options, env: Environment, st: State): Outcome {
    Run(o.folder, o.age.GetOr(""), o.fileDenyPattern, o.pathDenyPattern, o.recursive, o.dryRun, env, st)
  }

  /** Once the age is understood, the storage's permission checks are off
      for the whole run and restored at its end; the folder is unknown
      exactly when the storage has no such path; nothing is moved unless
      the run gets to the end outside a dry run. */
  lemma RunTouchesStorage(folderArg: string, age: string, fileDenyPattern: Option<string>, pathDenyPattern: Option<string>,
                          recursive: bool, dryRun: bool, env: Environment, st: State)
    ensures var r := Run(folderArg, age, fileDenyPattern, pathDenyPattern, recursive, dryRun, env, st);
      var arg := ParseFolderArgument(folderArg, env.isNumeric, env.toInt);
      && (r.report.UnknownFolder? <==> Cutoff(env, age).Some? && arg.path !in env.storages(arg.storageUid).folders)
      && (!r.report.AgeNotRecognized? ==>
            RestoresPermissions(r.effects, arg.storageUid, env.storages(arg.storageUid).evaluatePermissions))
      && (dryRun || !r.report.Done? ==> Inert(r.effects) && r.count == 0)
  {
    RunReportsUnknownFolder(folderArg, age, fileDenyPattern, pathDenyPattern, recursive, dryRun, env, st);
    RunRestoresPermissions(folderArg, age, fileDenyPattern, pathDenyPattern, recursive, dryRun, env, st);
    RunInertUnlessMoving(folderArg, age, fileDenyPattern, pathDenyPattern, recursive, dryRun, env, st);
  }

  /** The folder is unknown exactly when the storage has no such path. */
  lemma RunReportsUnknownFolder(folderArg: string, age: string, fileDenyPattern: Option<string>, pathDenyPattern: Option<string>,
                                recursive: bool, dryRun: bool, env: Environment, st: State)
    ensures var r := Run(folderArg, age, fileDenyPattern, pathDenyPattern, recursive, dryRun, env, st);
      var arg := ParseFolderArgument(folderArg, env.isNumeric, env.toInt);
      r.report.UnknownFolder? <==> Cutoff(env, age).Some? && arg.path !in env.storages(arg.storageUid).folders
  {
  }

  /** The permission switches of a run whose age is understood. */
  lemma RunRestoresPermissions(folderArg: string, age: string, fileDenyPattern: Option<string>, pathDenyPattern: Option<string>,
                               recursive: bool, dryRun: bool, env: Environment, st: State)
    ensures var r := Run(folderArg, age, fileDenyPattern, pathDenyPattern, recursive, dryRun, env, st);
      var arg := ParseFolderArgument(folderArg, env.isNumeric, env.toInt);
      !r.report.AgeNotRecognized? ==>
        RestoresPermissions(r.effects, arg.storageUid, env.storages(arg.storageUid).evaluatePermissions)
  {
    var r := Run(folderArg, age, fileDenyPattern, pathDenyPattern, recursive, dryRun, env, st);
    var arg := ParseFolderArgument(folderArg, env.isNumeric, env.toInt);
    var storage := env.storages(arg.storageUid);
    var off := [SetEvaluatePermissions(arg.storageUid, false)];
    var restore := SetEvaluatePermissions(arg.storageUid, storage.evaluatePermissions);
    match Cutoff(env, age)
    case None =>
    case Some(cutoff) =>
      if arg.path !in storage.folders || dryRun {
        assert r.effects == off + [restore];
      } else {
        var folder := storage.folders[arg.path];
        var (unused, repo) := FileRepository.FindUnusedFile(st.repo, env.host, arg.storageUid, folder.identifier,
                                                            Listing(folder, recursive), fileDenyPattern, pathDenyPattern);
        var batch := FileRepository.Resources(CleanupAgeFilter(st.cache, env.query, unused, cutoff).0);
        var m := MoveBatch(MoveState(0, env.recyclers, env.host.tables.sysFile, off), batch, env.moves);
        assert r.effects == m.effects + [restore];
        assert m.effects[0] == off[0];
      }
  }

  /** A dry run, or one that stops early, moves nothing. */
  lemma RunInertUnlessMoving(folderArg: string, age: string, fileDenyPattern: Option<string>, pathDenyPattern: Option<string>,
                             recursive: bool, dryRun: bool, env: Environment, st: State)
    ensures var r := Run(folderArg, age, fileDenyPattern, pathDenyPattern, recursive, dryRun, env, st);
      dryRun || !r.report.Done? ==> Inert(r.effects) && r.count == 0
  {
    var r := Run(folderArg, age, fileDenyPattern, pathDenyPattern, recursive, dryRun, env, st);
    var arg := ParseFolderArgument(folderArg, env.isNumeric, env.toInt);
    var storage := env.storages(arg.storageUid);
    var off := [SetEvaluatePermissions(arg.storageUid, false)];
    var restore := SetEvaluatePermissions(arg.storageUid, storage.evaluatePermissions);
    match Cutoff(env, age)
    case None =>
    case Some(cutoff) =>
      if arg.path !in storage.folders || dryRun {
        assert r.effects == off + [restore];
      }
  }

  /** The candidates are exactly the listed files that are unused and not
      newer than the cutoff, in listing order; a file stamped exactly at
      the cutoff is a candidate. */
  lemma RunCandidates(folderArg: string, age: string, fileDenyPattern: Option<string>, pathDenyPattern: Option<string>,
                      recursive: bool, dryRun: bool, env: Environment, st: State)
    requires Cutoff(env, age).Some?
    ensures var r := Run(folderArg, age, fileDenyPattern, pathDenyPattern, recursive, dryRun, env, st);
      var arg := ParseFolderArgument(folderArg, env.isNumeric, env.toInt);
      var storage := env.storages(arg.storageUid);
      r.report.Done? ==>
        var folder := storage.folders[arg.path];
        r.candidates == Filter(Listing(folder, recursive), And(
          FileRepository.Unused(
            FileRepository.EffectivePattern(fileDenyPattern, st.repo.config.fileNameDenyPattern),
            FileRepository.EffectivePattern(pathDenyPattern, st.repo.config.pathDenyPattern),
            env.host, r.state.repo.collections.fileUids),
          OldEnough(r.state.cache, Cutoff(env, age).value)))
  {
    var r := Run(folderArg, age, fileDenyPattern, pathDenyPattern, recursive, dryRun, env, st);
    var arg := ParseFolderArgument(folderArg, env.isNumeric, env.toInt);
    var storage := env.storages(arg.storageUid);
    if r.report.Done? {
      var cutoff := Cutoff(env, age).value;
      var folder := storage.folders[arg.path];
      var (unused, repo) := FileRepository.FindUnusedFile(st.repo, env.host, arg.storageUid, folder.identifier,
                                                          Listing(folder, recursive), fileDenyPattern, pathDenyPattern);
      var (kept, cache) := CleanupAgeFilter(st.cache, env.query, unused, cutoff);
      ResourcesKept(unused, cache, cutoff);
      FilterFilter(Listing(folder, recursive),
        FileRepository.Unused(
          FileRepository.EffectivePattern(fileDenyPattern, st.repo.config.fileNameDenyPattern),
          FileRepository.EffectivePattern(pathDenyPattern, st.repo.config.pathDenyPattern),
          env.host, repo.collections.fileUids),
        OldEnough(cache, cutoff));
    }
  }

  /** Outside a dry run, the count is the number of candidates whose parent
      has or gets a recycler folder and whose move succeeds. */
  lemma RunCount(folderArg: string, age: string, fileDenyPattern: Option<string>, pathDenyPattern: Option<string>,
                 recursive: bool, env: Environment, st: State)
    ensures var r := Run(folderArg, age, fileDenyPattern, pathDenyPattern, recursive, false, env, st);
      r.report.Done? ==> r.count == |Filter(r.candidates, Movable(env.recyclers, env.moves))|
  {
    var r := Run(folderArg, age, fileDenyPattern, pathDenyPattern, recursive, false, env, st);
    if r.report.Done? {
      var arg := ParseFolderArgument(folderArg, env.isNumeric, env.toInt);
      var sysFile := env.host.tables.sysFile;
      MoveBatchCount(MoveState(0, env.recyclers, sysFile, [SetEvaluatePermissions(arg.storageUid, false)]),
                     r.candidates, env.moves);
    }
  }

  /** A dry run reaches the same verdict on the same files and leaves the
      same state behind as a real run, but moves nothing. */
  lemma DryRunMatchesRun(folderArg: string, age: string, fileDenyPattern: Option<string>, pathDenyPattern: Option<string>,
                         recursive: bool, env: Environment, st: State)
    ensures var dry := Run(folderArg, age, fileDenyPattern, pathDenyPattern, recursive, true, env, st);
      var live := Run(folderArg, age, fileDenyPattern, pathDenyPattern, recursive, false, env, st);
      && dry.report == live.report
      && dry.candidates == live.candidates
      && dry.state == live.state
      && dry.count == 0
      && dry.sysFile == env.host.tables.sysFile
  {
  }
}

=== FILE: cleanup_controller.dfy ===
/** The backend module's controller: resolving the `id` request parameter
    to a folder, and the `cleanup` action that moves selected files. */
module CleanupController {
  import opened Wrappers
  import opened Seqs
  import opened Text

  /** A storage as the controller sees it: its uid, whether it has a folder,
      the folder holding a file identifier, its processing folder test and
      its root folder. */
  datatype StorageInfo = StorageInfo(
    uid: int,
    hasFolder: string -> bool,
    folderOfFile: string -> string,
    isProcessingFolder: string -> bool,
    rootLevel: string)

  /** `MathUtility::canBeInterpretedAsInteger`, the `(int)` cast,
      `getDefaultStorage` (`None` when no storage is flagged as the default)
      and `findByUid`. */
  datatype StorageHost = StorageHost(
    canBeInt: string -> bool,
    toInt: string -> int,
    defaultStorage: Option<StorageInfo>,
    findByUid: int -> Option<StorageInfo>)

  /** What `initializeObject` makes of the `id` parameter. */
  datatype Resolution =
    | Resolved(storageUid: int, identifier: string)
    | NoIdentifier            // a falsy `id`: the first file mount is used instead
    | NullStorage             // no default storage, or `findByUid` found nothing; `hasFolder` on null raises an `\Error` no catch handles
    | FolderNotFound          // `getFolderObjectFromCombinedIdentifier` threw; the "folder not found" notice is flashed
    | InsufficientPermissions // the fallback storage 0

  /** The storage `id` names: the default storage when the part before the
      first colon (trimmed) is not an integer and there is no colon at all,
      otherwise the storage with that uid; either lookup may find none. */
  function ChosenStorage(id: string, host: StorageHost): (r: Option<StorageInfo>)
    ensures ':' !in id && !host.canBeInt(Trim(id)) ==> r == host.defaultStorage
    ensures ':' in id || host.canBeInt(Trim(id)) ==> r == host.findByUid(host.toInt(Trim(SplitAtFirst(id, ':').0)))
  {
    var (head, rest) := SplitAtFirst(id, ':');
    if !host.canBeInt(Trim(head)) && rest.None? then host.defaultStorage
    else host.findByUid(host.toInt(Trim(head)))
  }

  /** `substr($id, strpos($id, ':') + 1)`: the text after the first colon;
      without a colon `strpos` is `false`, which counts as 0, so the first
      character is dropped. */
  function IdentifierPart(id: string): (r: string)
    requires id != ""
    ensures ':' !in id ==> r == id[1..]
    ensures ':' in id ==> id == SplitAtFirst(id, ':').0 + ":" + r
  {
    match IndexOf(id, ':')
    case None => id[1..]
    case Some(p) => id[p + 1..]
  }

  /** The folder identifier `initializeObject` tries for `id` in a storage:
      the text after the colon when the storage has such a folder, else the
      folder holding that file identifier. */
  function CandidateFolder(id: string, storage: StorageInfo): string
    requires id != ""
  {
    var candidate := IdentifierPart(id);
    if storage.hasFolder(candidate) then candidate else storage.folderOfFile(candidate)
  }

  /** The folder `initializeObject` settles on. The folder object is fetched
      (and may be missing) before storage 0 is refused. */
  function ResolveFolder(id: string, host: StorageHost): (r: Resolution)
    ensures IsEmpty(id) <==> r.NoIdentifier?
    ensures r.NullStorage? <==> !IsEmpty(id) && ChosenStorage(id, host).None?
    ensures r.FolderNotFound? <==>
      !IsEmpty(id) && ChosenStorage(id, host).Some? &&
      !ChosenStorage(id, host).value.hasFolder(CandidateFolder(id, ChosenStorage(id, host).value))
    ensures r.InsufficientPermissions? ==> ChosenStorage(id, host).Some? && ChosenStorage(id, host).value.uid == 0
    ensures r.Resolved? ==>
      && ChosenStorage(id, host).Some?
      && r.storageUid == ChosenStorage(id, host).value.uid
      && r.storageUid != 0
      && ChosenStorage(id, host).value.hasFolder(CandidateFolder(id, ChosenStorage(id, host).value))
  {
    if IsEmpty(id) then NoIdentifier
    else match ChosenStorage(id, host)
      case None => NullStorage
      case Some(storage) =>
        var identifier := CandidateFolder(id, storage);
        if !storage.hasFolder(identifier) then FolderNotFound
        else if storage.uid == 0 then InsufficientPermissions
        else if storage.isProcessingFolder(identifier) then Resolved(storage.uid, storage.rootLevel)
        else Resolved(storage.uid, identifier)
  }

  /** With a colon, `id` is `<storage>:<identifier>`: the storage is looked up
      by the trimmed head and the identifier is the tail (or the folder
      holding it, when the storage has no such folder); a folder that does
      not exist is reported before storage 0 is refused. */
  lemma ResolveCombined(id: string, head: string, tail: string, host: StorageHost)
    requires id == head + ":" + tail && ':' !in head
    requires host.findByUid(host.toInt(Trim(head))).Some?
    ensures var storage := host.findByUid(host.toInt(Trim(head))).value;
      var identifier := if storage.hasFolder(tail) then tail else storage.folderOfFile(tail);
      ResolveFolder(id, host) ==
        if !storage.hasFolder(identifier) then FolderNotFound
        else if storage.uid == 0 then InsufficientPermissions
        else if storage.isProcessingFolder(identifier) then Resolved(storage.uid, storage.rootLevel)
        else Resolved(storage.uid, identifier)
  {
    SplitAtFirstUnique(id, ':', head, tail);
    assert !IsEmpty(id) by { assert id[|head|] == ':'; }
  }

  /** How one file of the selection fares: it does not exist, the folder
      cannot be written, it is moved, or another exception escapes. */
  datatype MoveAttempt = FileMissing | WriteDenied | Moved | Uncaught

  datatype Severity = Ok | Warning | Error

  datatype FlashMessage = FlashMessage(body: string, title: string, severity: Severity, storeInSession: bool)

  /** The flash message for a folder the user may not write. */
  function DeniedMessage(folderPath: string): FlashMessage {
    FlashMessage("You are not allowed to create a _recycler_ folder in " + folderPath, "", Error, true)
  }

  /** `str_replace('%d', $n, 'Moved %d files to recycler')`. */
  function MovedMessage(n: nat): FlashMessage {
    FlashMessage("Moved " + NatToString(n) + " files to recycler", "", Ok, true)
  }

  const NothingMoved: FlashMessage := FlashMessage("No files moved", "", Warning, true)

  /** The result of the loop in `cleanupAction`. */
  datatype LoopResult = LoopResult(moved: nat, messages: seq<FlashMessage>, aborted: bool)

  /** The loop over the selected uids: missing files are skipped silently,
      a write-permission error flashes a message naming the parent folder,
      any other exception ends the action. */
  function MoveSelection(files: seq<int>, attempt: int -> MoveAttempt, parentPath: int -> string): (r: LoopResult)
    ensures r.moved <= |files|
    ensures r.aborted <==> exists u :: u in files && attempt(u).Uncaught?
    ensures forall m :: m in r.messages ==> m.severity == Error
    decreases |files|
  {
    if files == [] then LoopResult(0, [], false)
    else
      var u := files[0];
      assert forall v :: v in files <==> v == u || v in files[1..];
      match attempt(u)
      case Uncaught => LoopResult(0, [], true)
      case FileMissing => MoveSelection(files[1..], attempt, parentPath)
      case WriteDenied =>
        var rest := MoveSelection(files[1..], attempt, parentPath);
        rest.(messages := [DeniedMessage(parentPath(u))] + rest.messages)
      case Moved =>
        var rest := MoveSelection(files[1..], attempt, parentPath);
        rest.(moved := rest.moved + 1)
  }

  /** `cleanupAction($files)`: the loop, then the summary message. */
  function CleanupAction(files: seq<int>, attempt: int -> MoveAttempt, parentPath: int -> string): (r: LoopResult)
    ensures r.aborted <==> exists u :: u in files && attempt(u).Uncaught?
    ensures !r.aborted ==> |r.messages| >= 1
    ensures !r.aborted ==> r.moved == |Filter(files, Succeeds(attempt))|
    ensures !r.aborted ==> r.messages[..|r.messages| - 1] == Map(Filter(files, Denied(attempt)), DeniedMessageOf(parentPath))
    ensures !r.aborted ==> (r.messages[|r.messages| - 1] == NothingMoved <==> r.moved == 0)
    ensures !r.aborted && r.moved > 0 ==> r.messages[|r.messages| - 1] == MovedMessage(r.moved)
  {
    var loop := MoveSelection(files, attempt, parentPath);
    if loop.aborted then loop
    else
      MoveSelectionCounts(files, attempt, parentPath);
      var summary := if loop.moved > 0 then MovedMessage(loop.moved) else NothingMoved;
      assert (loop.messages + [summary])[..|loop.messages|] == loop.messages;
      loop.(messages := loop.messages + [summary])
  }

  function Succeeds(attempt: int -> MoveAttempt): int -> bool {
    u => attempt(u).Moved?
  }

  function Denied(attempt: int -> MoveAttempt): int -> bool {
    u => attempt(u).WriteDenied?
  }

  function DeniedMessageOf(parentPath: int -> string): int -> FlashMessage {
    u => DeniedMessage(parentPath(u))
  }

  /** Without an escaping exception the count is the number of successful
      moves, and the messages are one per denied folder, in order. */
  lemma MoveSelectionCounts(files: seq<int>, attempt: int -> MoveAttempt, parentPath: int -> string)
    requires forall u :: u in files ==> !attempt(u).Uncaught?
    ensures var r := MoveSelection(files, attempt, parentPath);
      && r.moved == |Filter(files, Succeeds(attempt))|
      && r.messages == Map(Filter(files, Denied(attempt)), DeniedMessageOf(parentPath))
  {
    MoveSelectionMoved(files, attempt, parentPath);
    MoveSelectionMessages(files, attempt, parentPath);
  }

  lemma {:induction false} MoveSelectionMoved(files: seq<int>, attempt: int -> MoveAttempt, parentPath: int -> string)
    requires forall u :: u in files ==> !attempt(u).Uncaught?
    ensures MoveSelection(files, attempt, parentPath).moved == |Filter(files, Succeeds(attempt))|
    decreases |files|
  {
    if files != [] {
      MoveSelectionMoved(files[1..], attempt, parentPath);
    }
  }

  lemma {:induction false} MoveSelectionMessages(files: seq<int>, attempt: int -> MoveAttempt, parentPath: int -> string)
    requires forall u :: u in files ==> !attempt(u).Uncaught?
    ensures MoveSelection(files, attempt, parentPath).messages == Map(Filter(files, Denied(attempt)), DeniedMessageOf(parentPath))
    decreases |files|
  {
    if files != [] {
      var u := files[0];
      MoveSelectionMessages(files[1..], attempt, parentPath);
      var denied := Filter(files[1..], Denied(attempt));
      var rest := MoveSelection(files[1..], attempt, parentPath);
      if attempt(u).WriteDenied? {
        assert MoveSelection(files, attempt, parentPath).messages == [DeniedMessage(parentPath(u))] + rest.messages;
        assert Filter(files, Denied(attempt)) == [u] + denied;
        MapCons(u, denied, DeniedMessageOf(parentPath));
      } else {
        assert MoveSelection(files, attempt, parentPath).messages == rest.messages;
        assert Filter(files, Denied(attempt)) == denied;
      }
    }
  }

  /** The summary names the number of moved files, as decimal digits. */
  lemma MovedMessageNamesCount(n: nat)
    ensures var body := MovedMessage(n).body;
      && |body| == 6 + |NatToString(n)| + 18
      && body[6..|body| - 18] == NatToString(n)
      && ParseDigits(body[6..|body| - 18]) == n
  {
  }

  /** What a message body may be: a string, or a value of another PHP type. */
  datatype MessageBody = StringBody(text: string) | OtherBody(typeName: string)

  const BodyTypePrefix: string := "The message body must be of type string, \""

  /** `addFlashMessage(...)`: a string body becomes a message; any other body
      is refused with an `InvalidArgumentException` naming its type. */
  function AddFlashMessage(body: MessageBody, title: string := "", severity: Severity := Ok, storeInSession: bool := true)
    : (r: Result<FlashMessage, string>)
    ensures r.Success? <==> body.StringBody?
    ensures r.Success? ==> r.value.body == body.text && r.value.title == title && r.value.severity == severity
    ensures r.Failure? ==> BodyTypePrefix <= r.error && body.typeName <= r.error[|BodyTypePrefix|..]
  {
    match body
    case StringBody(text) => Success(FlashMessage(text, title, severity, storeInSession))
    case OtherBody(typeName) =>
      Failure(BodyTypePrefix + typeName + "\" given.")
  }
}

=== FILE: command_support.dfy ===
/** What the three command classes share: parsing the folder argument, the
    two age filters, and the move and delete loops. Calls into the storage
    become entries of an effect trace, in the order they happen. */
module CommandSupport {
  import opened Wrappers
  import opened Seqs
  import opened Text
  import opened PhpArray
  import opened Resource
  import opened Database
  import opened FileFacade
  import FileRepository
  import ResourceStorageListener

  /** `Command::SUCCESS` and `Command::FAILURE`. */
  const ExitSuccess: int := 0
  const ExitFailure: int := 1

  /** Calls the commands make on the storage. */
  datatype Effect =
    | SetEvaluatePermissions(storage: int, value: bool)
    | CreateRecycler(parent: string)
    | MoveToRecycler(fileUid: int, parent: string)
    | DeleteFile(fileUid: int)

  /** A storage uid and a folder path inside it. */
  datatype FolderArgument = FolderArgument(storageUid: int, path: string)

  /** `[$storageUid, $folderPath] = explode(':', $folder, 2)` followed by the
      fallback to storage 1 with the whole argument as path when the part
      before the colon is not numeric. A missing path (no colon) is `null`,
      which the storage receives as the empty string. */
  function ParseFolderArgument(arg: string, isNumeric: string -> bool, toInt: string -> int): (r: FolderArgument)
    ensures ':' !in arg ==> r == if isNumeric(arg) then FolderArgument(toInt(arg), "") else FolderArgument(1, arg)
    ensures r.storageUid == 1 || r.path != arg || isNumeric(arg)
  {
    var (head, tail) := SplitAtFirst(arg, ':');
    if !isNumeric(head) then FolderArgument(1, arg)
    else FolderArgument(toInt(head), tail.GetOr(""))
  }

  /** With a colon, the argument splits at the first one: a numeric head
      selects the storage and the rest is the path; otherwise storage 1 gets
      the whole argument. */
  lemma ParseFolderArgumentSplit(arg: string, head: string, tail: string, isNumeric: string -> bool, toInt: string -> int)
    requires arg == head + ":" + tail && ':' !in head
    ensures ParseFolderArgument(arg, isNumeric, toInt) ==
      if isNumeric(head) then FolderArgument(toInt(head), tail) else FolderArgument(1, arg)
  {
    SplitAtFirstUnique(arg, ':', head, tail);
  }

  /** The exit code of `execute()`: `FAILURE` for an unknown age, 1 for an
      unknown folder, `SUCCESS` at the end; an uncaught exception leaves no
      code. */
  function ExitCode(report: Report): (code: Option<int>)
    ensures code == Some(ExitSuccess) <==> report.Done?
    ensures code.None? <==> report.Aborted?
  {
    match report
    case AgeNotRecognized => Some(ExitFailure)
    case UnknownFolder(_, _) => Some(1)
    case Done => Some(ExitSuccess)
    case Aborted => None
  }

  /** A storage as the commands see it: its permission flag and its folders
      by path (`hasFolder` / `getFolder`). */
  datatype StorageView = StorageView(evaluatePermissions: bool, folders: map<string, Folder>)

  /** Everything a command run consults outside the extension's own state:
      the repository's host, `strtotime`, `is_numeric` and the integer cast,
      the storages by uid, the reference-timestamp query (if any), the
      parents that already hold a `_recycler_` folder, and the outcome of
      every move and delete. */
  datatype Environment = Environment(
    host: FileRepository.Host,
    strtotime: string -> Option<int>,
    isNumeric: string -> bool,
    toInt: string -> int,
    storages: int -> StorageView,
    query: Option<TimestampQuery>,
    recyclers: set<string>,
    moves: MoveOracle,
    deletes: File -> DeleteOutcome)

  /** The singletons that survive between runs: the repository (with its
      collection service) and the facades' timestamp cache. */
  datatype State = State(repo: FileRepository.Repository, cache: TimestampCache)

  /** How a run ended. `Aborted` is an exception nobody catches. */
  datatype Report = AgeNotRecognized | UnknownFolder(path: string, storageUid: int) | Done | Aborted

  /** The result of a run: how it ended, the storage calls in order, the
      files that passed every filter, the number moved or deleted, the
      failure lines, the surviving state and the `sys_file` table. */
  datatype Outcome = Outcome(
    report: Report,
    effects: seq<Effect>,
    candidates: seq<File>,
    count: nat,
    lines: seq<string>,
    state: State,
    sysFile: SysFileTable)

  /** The files of every folder in `ds`, folder by folder. */
  function FilesOf(ds: seq<Folder>): (r: seq<File>)
    ensures forall f :: f in r <==> exists d :: d in ds && f in Values(d.files)
    decreases |ds|
  {
    if ds == [] then []
    else
      assert forall d :: d in ds <==> d == ds[0] || d in ds[1..];
      Values(ds[0].files) + FilesOf(ds[1..])
  }

  /** `$folder->getFiles(..., $recursive)`: the folder's own files, and with
      `recursive` those of every folder below it. */
  function Listing(folder: Folder, recursive: bool): (r: seq<File>)
    ensures forall f :: f in r <==>
      (f in Values(folder.files) || (recursive && exists d :: d in Descendants(folder) && f in Values(d.files)))
  {
    if recursive then
      assert forall d :: d in [folder] + Descendants(folder) <==> d == folder || d in Descendants(folder);
      FilesOf([folder] + Descendants(folder))
    else Values(folder.files)
  }

  /** The trace starts by switching permission checks off and ends by
      restoring the flag found on the storage. */
  predicate RestoresPermissions(effects: seq<Effect>, storage: int, flag: bool) {
    && |effects| >= 2
    && effects[0] == SetEvaluatePermissions(storage, false)
    && effects[|effects| - 1] == SetEvaluatePermissions(storage, flag)
  }

  /** No file is moved or deleted and no folder created. */
  predicate Inert(effects: seq<Effect>) {
    forall e :: e in effects ==> e.SetEvaluatePermissions?
  }

  // ---------------------------------------------------------------- ages

  /** `getLastReferenceTimestamp() ?: getModificationTime()` once the cache
      holds the file's entry. */
  function ReferenceAge(cache: TimestampCache, f: File): int {
    if f.uid > 0 && f.uid in cache && cache[f.uid] != 0 then cache[f.uid] else f.modificationTime
  }

  /** The file is not newer than the cutoff. */
  function OldEnough(cache: TimestampCache, cutoff: int): File -> bool {
    (f: File) => ReferenceAge(cache, f) <= cutoff
  }

  function KeptByReferenceAge(cache: TimestampCache, cutoff: int): Facade -> bool {
    (f: Facade) => OldEnough(cache, cutoff)(f.resource)
  }

  /** Filtering facades by age filters their resources the same way. */
  lemma {:induction false} ResourcesKept(fs: seq<Facade>, cache: TimestampCache, cutoff: int)
    ensures FileRepository.Resources(Filter(fs, KeptByReferenceAge(cache, cutoff)))
         == Filter(FileRepository.Resources(fs), OldEnough(cache, cutoff))
    decreases |fs|
  {
    if fs != [] {
      ResourcesKept(fs[1..], cache, cutoff);
      var rs := FileRepository.Resources(fs);
      assert rs == [fs[0].resource] + FileRepository.Resources(fs[1..]);
      var kept := Filter(fs[1..], KeptByReferenceAge(cache, cutoff));
      if KeptByReferenceAge(cache, cutoff)(fs[0]) {
        assert FileRepository.Resources([fs[0]] + kept) == [fs[0].resource] + FileRepository.Resources(kept);
      }
    }
  }

  /** The uids of the files behind some facades. */
  function ResourceUids(files: seq<Facade>): set<int> {
    set f | f in files :: f.resource.uid
  }

  /** The cleanup age filter: each file's timestamp is fetched through the
      facade cache and the file is dropped when it is newer than the cutoff
      (`$fileAge > $age`); a file stamped exactly at the cutoff stays. */
  function CleanupAgeFilter(cache: TimestampCache, query: Option<TimestampQuery>, files: seq<Facade>, cutoff: int)
    : (r: (seq<Facade>, TimestampCache))
    ensures forall u :: u in cache ==> u in r.1 && r.1[u] == cache[u]
    ensures forall f :: f in files && f.resource.uid > 0 ==> f.resource.uid in r.1
    ensures r.0 == Filter(files, KeptByReferenceAge(r.1, cutoff))
    decreases |files|
  {
    if files == [] then ([], cache)
    else
      var f := files[0];
      var (ts, cache1) := LastReferenceTimestamp(cache, f, query);
      var (rest, cache2) := CleanupAgeFilter(cache1, query, files[1..], cutoff);
      var age := if ts != 0 then ts else f.resource.modificationTime;
      assert f.resource.uid > 0 ==> f.resource.uid in cache2 && cache2[f.resource.uid] == ts;
      assert age == ReferenceAge(cache2, f.resource);
      assert OldEnough(cache2, cutoff)(f.resource) <==> age <= cutoff;
      assert KeptByReferenceAge(cache2, cutoff)(f) <==> age <= cutoff;
      assert forall g :: g in files <==> g == f || g in files[1..];
      (if age > cutoff then rest else [f] + rest, cache2)
  }

  /** The cache the age filter leaves behind holds, for every listed file,
      what its first `getLastReferenceTimestamp` answered, and gains entries
      only for the listed files. */
  lemma {:induction false} CleanupAgeFilterCache(cache: TimestampCache, query: Option<TimestampQuery>, files: seq<Facade>,
                                                 cutoff: int)
    ensures var r := CleanupAgeFilter(cache, query, files, cutoff);
      && (forall f :: f in files && f.resource.uid > 0 ==> r.1[f.resource.uid] == LastReferenceTimestamp(cache, f, query).0)
      && r.1.Keys <= cache.Keys + ResourceUids(files)
    decreases |files|
  {
    if files != [] {
      var f := files[0];
      var cache1 := LastReferenceTimestamp(cache, f, query).1;
      CleanupAgeFilterCache(cache1, query, files[1..], cutoff);
      LookupsCommute(cache, f, files[1..], query);
      assert CleanupAgeFilter(cache, query, files, cutoff).1 == CleanupAgeFilter(cache1, query, files[1..], cutoff).1;
      assert ResourceUids(files) == {f.resource.uid} + ResourceUids(files[1..]);
      assert forall g :: g in files <==> g == f || g in files[1..];
    }
  }

  /** The empty-recycler age: `getLastMove()`, or the modification time when
      that is 0. */
  function RecyclerAge(table: SysFileTable, f: File): int {
    var lastMove := FileRepository.LastMove(table, f);
    if lastMove != 0 then lastMove else f.modificationTime
  }

  /** Drops the entries whose age is newer than the cutoff, keeping keys. */
  function KeepOlder(files: Array<string, File>, age: File -> int, cutoff: int): (r: Array<string, File>)
    ensures forall e :: e in r <==> e in files && age(e.value) <= cutoff
  {
    FilterValues(files, (f: File) => age(f) <= cutoff)
  }

  // ---------------------------------------------------------------- moves

  /** Progress of the move loop. */
  datatype MoveState = MoveState(moved: nat, recyclers: set<string>, sysFile: SysFileTable, effects: seq<Effect>)

  /** The framework's answers during a move loop: whether creating a
      `_recycler_` folder in a parent succeeds and whether moving a file
      succeeds, plus the clock reading the listener stamps. */
  datatype MoveOracle = MoveOracle(createOk: string -> bool, moveOk: File -> bool, now: int)

  /** A file's parent has, or can be given, a `_recycler_` folder. */
  predicate RecyclerAvailable(recyclers: set<string>, o: MoveOracle, f: File) {
    f.parentIdentifier in recyclers || o.createOk(f.parentIdentifier)
  }

  /** The move of `f` goes through. */
  function Movable(recyclers: set<string>, o: MoveOracle): File -> bool {
    (f: File) => RecyclerAvailable(recyclers, o, f) && o.moveOk(f)
  }

  /** One iteration of the move loop: reuse the parent's `_recycler_` or
      create it, then move the file; an exception at either step skips the
      file. A completed move fires the listener. */
  function MoveOne(st: MoveState, f: File, o: MoveOracle): (r: MoveState)
    ensures st.recyclers <= r.recyclers <= st.recyclers + {f.parentIdentifier}
    ensures r.recyclers != st.recyclers ==> o.createOk(f.parentIdentifier)
    ensures r.moved == st.moved + (if Movable(st.recyclers, o)(f) then 1 else 0)
  {
    var p := f.parentIdentifier;
    if p in st.recyclers then
      MoveInto(st, f, o)
    else if o.createOk(p) then
      MoveInto(st.(recyclers := st.recyclers + {p}, effects := st.effects + [CreateRecycler(p)]), f, o)
    else
      st.(effects := st.effects + [CreateRecycler(p)])
  }

  /** `$file->moveTo($recycler)` once the recycler exists. */
  function MoveInto(st: MoveState, f: File, o: MoveOracle): (r: MoveState)
    ensures r.recyclers == st.recyclers
    ensures r.moved == st.moved + (if o.moveOk(f) then 1 else 0)
  {
    var effects := st.effects + [MoveToRecycler(f.uid, f.parentIdentifier)];
    if o.moveOk(f) then
      st.(moved := st.moved + 1,
          sysFile := ResourceStorageListener.PostFileMove(st.sysFile, f, o.now),
          effects := effects)
    else st.(effects := effects)
  }

  /** The move loop over a batch. */
  function MoveBatch(st: MoveState, files: seq<File>, o: MoveOracle): (r: MoveState)
    ensures st.effects <= r.effects
    ensures st.recyclers <= r.recyclers
    decreases |files|
  {
    if files == [] then st else MoveBatch(MoveOne(st, files[0], o), files[1..], o)
  }

  /** The loop moves exactly the files whose parent has or gets a recycler
      and whose move succeeds; a failure never stops the batch. */
  lemma {:induction false} MoveBatchCount(st: MoveState, files: seq<File>, o: MoveOracle)
    ensures MoveBatch(st, files, o).moved == st.moved + |Filter(files, Movable(st.recyclers, o))|
    decreases |files|
  {
    if files != [] {
      var st1 := MoveOne(st, files[0], o);
      MoveBatchCount(st1, files[1..], o);
      forall f | f in files[1..] ensures Movable(st1.recyclers, o)(f) == Movable(st.recyclers, o)(f) {
      }
      FilterCongruent(files[1..], Movable(st1.recyclers, o), Movable(st.recyclers, o));
    }
  }

  /** A recycler folder is created only where none exists: never in a folder
      that already had one, and at most once where creation succeeds. */
  lemma {:induction false} MoveBatchCreatesOnce(st: MoveState, files: seq<File>, o: MoveOracle, p: string)
    ensures var r := MoveBatch(st, files, o);
      && (p in st.recyclers ==> multiset(r.effects)[CreateRecycler(p)] == multiset(st.effects)[CreateRecycler(p)])
      && (o.createOk(p) ==> multiset(r.effects)[CreateRecycler(p)] <= multiset(st.effects)[CreateRecycler(p)] + 1)
    decreases |files|
  {
    if files != [] {
      var st1 := MoveOne(st, files[0], o);
      MoveBatchCreatesOnce(st1, files[1..], o, p);
      var q := files[0].parentIdentifier;
      if q in st.recyclers {
        assert st1.effects == st.effects + [MoveToRecycler(files[0].uid, q)];
      } else if o.createOk(q) {
        assert st1.effects == st.effects + [CreateRecycler(q), MoveToRecycler(files[0].uid, q)];
      } else {
        assert st1.effects == st.effects + [CreateRecycler(q)];
      }
    }
  }

  /** Moves only touch `last_move`, and only of moved files. */
  lemma {:induction false} MoveBatchStamps(st: MoveState, files: seq<File>, o: MoveOracle)
    ensures var r := MoveBatch(st, files, o);
      && r.sysFile.Keys == st.sysFile.Keys
      && forall u :: u in st.sysFile ==>
           r.sysFile[u] == st.sysFile[u] || r.sysFile[u] == st.sysFile[u].(lastMove := o.now)
    decreases |files|
  {
    if files != [] {
      MoveBatchStamps(MoveOne(st, files[0], o), files[1..], o);
    }
  }

  // --------------------------------------------------------------- deletes

  /** How `$file->delete()` ends: normally, with a
      `FileOperationErrorException` carrying a message, or with any other
      exception, which nothing catches. */
  datatype DeleteOutcome = Deleted | OperationError(message: string) | OtherError

  /** Progress of the delete loop. */
  datatype DeleteRun = DeleteRun(deleted: nat, lines: seq<string>, effects: seq<Effect>, aborted: bool)

  /** The line printed for a failed delete. */
  function FailureLine(name: string, message: string): string {
    "Failed to remove " + name + " [" + message + "]"
  }

  /** The delete loop: counts successes, reports each operation error and
      carries on; any other exception ends the loop there. */
  function DeleteBatch(files: seq<File>, outcome: File -> DeleteOutcome): (r: DeleteRun)
    ensures r.deleted <= |files|
    ensures r.aborted <==> exists f :: f in files && outcome(f).OtherError?
    ensures forall e :: e in r.effects ==> e.DeleteFile?
    decreases |files|
  {
    if files == [] then DeleteRun(0, [], [], false)
    else
      var f := files[0];
      assert forall g :: g in files <==> g == f || g in files[1..];
      match outcome(f)
      case OtherError => DeleteRun(0, [], [DeleteFile(f.uid)], true)
      case Deleted =>
        var rest := DeleteBatch(files[1..], outcome);
        rest.(deleted := rest.deleted + 1, effects := [DeleteFile(f.uid)] + rest.effects)
      case OperationError(message) =>
        var rest := DeleteBatch(files[1..], outcome);
        rest.(lines := [FailureLine(f.name, message)] + rest.lines, effects := [DeleteFile(f.uid)] + rest.effects)
  }

  function DeleteSucceeds(outcome: File -> DeleteOutcome): File -> bool {
    (f: File) => outcome(f).Deleted?
  }

  function DeleteFails(outcome: File -> DeleteOutcome): File -> bool {
    (f: File) => outcome(f).OperationError?
  }

  function FailureLineOf(outcome: File -> DeleteOutcome): File -> string {
    (f: File) => if outcome(f).OperationError? then FailureLine(f.name, outcome(f).message) else ""
  }

  /** Without an uncaught exception every file is tried once, in order, the
      count is the number of successful deletes and there is one failure
      line per operation error, in order. */
  lemma DeleteBatchCompletes(files: seq<File>, outcome: File -> DeleteOutcome)
    requires forall f :: f in files ==> !outcome(f).OtherError?
    ensures var r := DeleteBatch(files, outcome);
      && !r.aborted
      && r.deleted == |Filter(files, DeleteSucceeds(outcome))|
      && r.lines == Map(Filter(files, DeleteFails(outcome)), FailureLineOf(outcome))
      && r.effects == Map(files, DeleteEffect)
  {
    DeleteBatchCount(files, outcome);
    DeleteBatchLines(files, outcome);
    DeleteBatchEffects(files, outcome);
  }

  lemma {:induction false} DeleteBatchCount(files: seq<File>, outcome: File -> DeleteOutcome)
    requires forall f :: f in files ==> !outcome(f).OtherError?
    ensures DeleteBatch(files, outcome).deleted == |Filter(files, DeleteSucceeds(outcome))|
    decreases |files|
  {
    if files != [] {
      DeleteBatchCount(files[1..], outcome);
    }
  }

  lemma {:induction false} DeleteBatchLines(files: seq<File>, outcome: File -> DeleteOutcome)
    requires forall f :: f in files ==> !outcome(f).OtherError?
    ensures DeleteBatch(files, outcome).lines == Map(Filter(files, DeleteFails(outcome)), FailureLineOf(outcome))
    decreases |files|
  {
    if files != [] {
      var f := files[0];
      DeleteBatchLines(files[1..], outcome);
      var fails := Filter(files[1..], DeleteFails(outcome));
      var rest := DeleteBatch(files[1..], outcome);
      if outcome(f).OperationError? {
        assert DeleteBatch(files, outcome).lines == [FailureLine(f.name, outcome(f).message)] + rest.lines;
        assert Filter(files, DeleteFails(outcome)) == [f] + fails;
        MapCons(f, fails, FailureLineOf(outcome));
      } else {
        assert DeleteBatch(files, outcome).lines == rest.lines;
        assert Filter(files, DeleteFails(outcome)) == fails;
      }
    }
  }

  lemma {:induction false} DeleteBatchEffects(files: seq<File>, outcome: File -> DeleteOutcome)
    requires forall f :: f in files ==> !outcome(f).OtherError?
    ensures DeleteBatch(files, outcome).effects == Map(files, DeleteEffect)
    decreases |files|
  {
    if files != [] {
      DeleteBatchEffects(files[1..], outcome);
      assert Map(files, DeleteEffect) == [DeleteEffect(files[0])] + Map(files[1..], DeleteEffect);
    }
  }

  /** An uncaught exception at the `i`-th file ends the loop there: the files
      after it are never tried. */
  lemma {:induction false} DeleteBatchAborts(files: seq<File>, outcome: File -> DeleteOutcome, i: nat)
    requires i < |files| && outcome(files[i]).OtherError?
    requires forall j :: 0 <= j < i ==> !outcome(files[j]).OtherError?
    ensures var r := DeleteBatch(files, outcome);
      && r.aborted
      && r.deleted == |Filter(files[..i], DeleteSucceeds(outcome))|
      && r.effects == Map(files[..i + 1], DeleteEffect)
  {
    DeleteBatchAbortsCount(files, outcome, i);
    DeleteBatchAbortsEffects(files, outcome, i);
  }

  lemma {:induction false} DeleteBatchAbortsCount(files: seq<File>, outcome: File -> DeleteOutcome, i: nat)
    requires i < |files| && outcome(files[i]).OtherError?
    requires forall j :: 0 <= j < i ==> !outcome(files[j]).OtherError?
    ensures DeleteBatch(files, outcome).deleted == |Filter(files[..i], DeleteSucceeds(outcome))|
    decreases i
  {
    if i > 0 {
      var f := files[0];
      var rest := files[1..];
      forall j | 0 <= j < i - 1 ensures !outcome(rest[j]).OtherError? {
        assert rest[j] == files[j + 1];
      }
      DeleteBatchAbortsCount(rest, outcome, i - 1);
      assert !outcome(f).OtherError?;
      assert DeleteBatch(files, outcome).deleted
          == DeleteBatch(rest, outcome).deleted + (if outcome(f).Deleted? then 1 else 0);
      assert files[..i][1..] == rest[..i - 1];
    }
  }

  lemma {:induction false} DeleteBatchAbortsEffects(files: seq<File>, outcome: File -> DeleteOutcome, i: nat)
    requires i < |files| && outcome(files[i]).OtherError?
    requires forall j :: 0 <= j < i ==> !outcome(files[j]).OtherError?
    ensures DeleteBatch(files, outcome).effects == Map(files[..i + 1], DeleteEffect)
    decreases i
  {
    var f := files[0];
    if i > 0 {
      var rest := files[1..];
      forall j | 0 <= j < i - 1 ensures !outcome(rest[j]).OtherError? {
        assert rest[j] == files[j + 1];
      }
      DeleteBatchAbortsEffects(rest, outcome, i - 1);
      assert !outcome(f).OtherError?;
      assert DeleteBatch(files, outcome).effects == [DeleteFile(f.uid)] + DeleteBatch(rest, outcome).effects;
      assert files[..i + 1] == [f] + rest[..i];
      MapCons(f, rest[..i], DeleteEffect);
    } else {
      assert files[..1] == [f];
      MapCons(f, [], DeleteEffect);
    }
  }

  /** The trace entry of a delete. */
  function DeleteEffect(f: File): Effect {
    DeleteFile(f.uid)
  }
}

=== FILE: database.dfy ===
/** Rows of the database tables the extension queries. Only the columns the
    queries use are kept. */
module Database {

  /** A `sys_refindex` row: record `recuid` of table `tablename` points at
      row `refUid` of table `refTable`. */
  datatype RefIndexRow = RefIndexRow(recuid: int, tablename: string, refTable: string, refUid: int)

  /** A `sys_file_reference` row as the query builder returns it. */
  datatype FileReferenceRow = FileReferenceRow(uid: int, tableLocal: string, uidLocal: int)

  /** A `sys_file` row; `lastMove` is the column this extension adds. */
  datatype SysFileRow = SysFileRow(uid: int, identifier: string, name: string, lastMove: int)

  /** `sys_file` keyed by its primary key `uid`. */
  type SysFileTable = map<int, SysFileRow>

  /** A `sys_file_collection` row. `folder`/`storage` are the columns before
      TYPO3 12, `folderIdentifier` the combined column from TYPO3 12 on. */
  datatype CollectionRow = CollectionRow(
    uid: int,
    kind: string,
    storage: int,
    folder: string,
    folderIdentifier: string)

  /** The tables a scan reads. */
  datatype Tables = Tables(
    refIndex: seq<RefIndexRow>,
    fileReferences: seq<FileReferenceRow>,
    sysFile: SysFileTable,
    collections: seq<CollectionRow>)
}

=== FILE: empty_recycler_command.dfy ===
/** The `empty_recycler` console command: deletes the files that have waited
    long enough in the `_recycler_` folders below a folder. */
module EmptyRecyclerCommand {
  import opened Wrappers
  import opened Seqs
  import opened PhpArray
  import opened Resource
  import opened Database
  import opened CommandSupport
  import FileRepository
  import ResourceStorageListener

  /** The command line: the `folder` argument and the four options. An
      option given without a value arrives as `None`. */
  datatype Options = Options(
    folder: string,
    age: Option<string>,
    fileDenyPattern: Option<string>,
    recursive: bool,
    dryRun: bool)

  /** The options when only the folder is given. */
  function Defaults(folder: string): (o: Options)
    ensures o.folder == folder && !o.recursive && !o.dryRun
    ensures o.age == Some("1 month") && o.fileDenyPattern == Some("/index.html/i")
  {
    Options(folder, Some("1 month"), Some("/index.html/i"), false, false)
  }

  /** Which timestamp decides a file's age in the recycler. */
  datatype AgeSource = LastMoveOrModification | ModificationOnly

  /** The age of a recycled file: the `last_move` stamp falling back to the
      modification time, or (in the legacy controller) the modification
      time alone. */
  function AgeOf(source: AgeSource, table: SysFileTable): (age: File -> int)
    ensures source.ModificationOnly? ==> forall f :: age(f) == f.modificationTime
    ensures source.LastMoveOrModification? ==> forall f ::
      && (FileRepository.LastMove(table, f) != 0 ==> age(f) == FileRepository.LastMove(table, f))
      && (FileRepository.LastMove(table, f) == 0 ==> age(f) == f.modificationTime)
  {
    match source
    case LastMoveOrModification => (f: File) => RecyclerAge(table, f)
    case ModificationOnly => (f: File) => f.modificationTime
  }

  /** The shared empty-recycler run: parse the age, find the folder with
      permission checks off, gather the recycled files, drop the ones newer
      than the cutoff and (unless dry) delete the rest. An exception other
      than a file-operation error escapes and skips the restore. */
  function Run(folderArg: string, age: string, fileDenyPattern: Option<string>, recursive: bool, dryRun: bool,
               source: AgeSource, env: Environment, st: State): (r: Outcome)
    ensures r.report.AgeNotRecognized? <==> env.strtotime("-" + age).None?
    ensures r.report.AgeNotRecognized? ==> r.effects == []
    ensures r.state == st && r.sysFile == env.host.tables.sysFile
    ensures r.count <= |r.candidates|
    ensures r.report.Aborted? ==> !dryRun && exists f :: f in r.candidates && env.deletes(f).OtherError?
  {
    match env.strtotime("-" + age)
    case None => Outcome(AgeNotRecognized, [], [], 0, [], st, env.host.tables.sysFile)
    case Some(cutoff) =>
      var arg := ParseFolderArgument(folderArg, env.isNumeric, env.toInt);
      var storage := env.storages(arg.storageUid);
      var off := [SetEvaluatePermissions(arg.storageUid, false)];
      var restore := SetEvaluatePermissions(arg.storageUid, storage.evaluatePermissions);
      if arg.path !in storage.folders then
        Outcome(UnknownFolder(arg.path, arg.storageUid), off + [restore], [], 0, [], st, env.host.tables.sysFile)
      else
        var folder := storage.folders[arg.path];
        var files := FileRepository.FindAllFilesInRecyclerFolder(st.repo, env.host.matches, folder, recursive, fileDenyPattern);
        var kept := KeepOlder(files, AgeOf(source, env.host.tables.sysFile), cutoff);
        var batch := Values(kept);
        if dryRun then
          Outcome(Done, off + [restore], batch, 0, [], st, env.host.tables.sysFile)
        else
          var d := DeleteBatch(batch, env.deletes);
          if d.aborted then
            Outcome(Aborted, off + d.effects, batch, d.deleted, d.lines, st, env.host.tables.sysFile)
          else
            Outcome(Done, off + d.effects + [restore], batch, d.deleted, d.lines, st, env.host.tables.sysFile)
  }

  /** `execute()`: the run for the given command line. */
  function Execute(o: Options, env: Environment, st: State): Outcome {
    Run(o.folder, o.age.GetOr(""), o.fileDenyPattern, o.recursive, o.dryRun, LastMoveOrModification, env, st)
  }

  /** Once the age is understood, the storage's permission checks are off
      for the run and restored at its end, unless an uncaught exception ends
      it first; nothing is deleted unless the run goes past the folder
      check outside a dry run. */
  lemma RunTouchesStorage(folderArg: string, age: string, fileDenyPattern: Option<string>, recursive: bool, dryRun: bool,
                          source: AgeSource, env: Environment, st: State)
    ensures var r := Run(folderArg, age, fileDenyPattern, recursive, dryRun, source, env, st);
      var arg := ParseFolderArgument(folderArg, env.isNumeric, env.toInt);
      var flag := env.storages(arg.storageUid).evaluatePermissions;
      && (r.report.UnknownFolder? <==> env.strtotime("-" + age).Some? && arg.path !in env.storages(arg.storageUid).folders)
      && (r.report.Done? || r.report.UnknownFolder? ==> RestoresPermissions(r.effects, arg.storageUid, flag))
      && (r.report.Aborted? ==>
            r.effects[0] == SetEvaluatePermissions(arg.storageUid, false) && forall e :: e in r.effects[1..] ==> e.DeleteFile?)
      && (dryRun || r.report.AgeNotRecognized? || r.report.UnknownFolder? ==> Inert(r.effects) && r.count == 0)
  {
    var r := Run(folderArg, age, fileDenyPattern, recursive, dryRun, source, env, st);
    var arg := ParseFolderArgument(folderArg, env.isNumeric, env.toInt);
    var storage := env.storages(arg.storageUid);
    var off := [SetEvaluatePermissions(arg.storageUid, false)];
    var restore := SetEvaluatePermissions(arg.storageUid, storage.evaluatePermissions);
    match env.strtotime("-" + age)
    case None =>
    case Some(cutoff) =>
      if arg.path !in storage.folders {
        assert r.effects == off + [restore];
      } else if dryRun {
        assert r.effects == off + [restore];
      } else {
        var files := FileRepository.FindAllFilesInRecyclerFolder(st.repo, env.host.matches, storage.folders[arg.path],
                                                                 recursive, fileDenyPattern);
        var batch := Values(KeepOlder(files, AgeOf(source, env.host.tables.sysFile), cutoff));
        var d := DeleteBatch(batch, env.deletes);
        if d.aborted {
          assert r.effects == off + d.effects;
          assert r.effects[1..] == d.effects;
        } else {
          assert r.effects == off + d.effects + [restore];
        }
      }
  }

  /** The candidates are exactly the gathered recycled files whose age is
      not newer than the cutoff; a file stamped exactly at the cutoff is
      deleted. */
  lemma RunCandidates(folderArg: string, age: string, fileDenyPattern: Option<string>, recursive: bool, dryRun: bool,
                      source: AgeSource, env: Environment, st: State)
    requires env.strtotime("-" + age).Some?
    ensures var r := Run(folderArg, age, fileDenyPattern, recursive, dryRun, source, env, st);
      var arg := ParseFolderArgument(folderArg, env.isNumeric, env.toInt);
      var storage := env.storages(arg.storageUid);
      r.report.Done? || r.report.Aborted? ==>
        var files := FileRepository.FindAllFilesInRecyclerFolder(st.repo, env.host.matches, storage.folders[arg.path],
                                                                 recursive, fileDenyPattern);
        forall f :: f in r.candidates <==>
          f in Values(files) && AgeOf(source, env.host.tables.sysFile)(f) <= env.strtotime("-" + age).value
  {
    var r := Run(folderArg, age, fileDenyPattern, recursive, dryRun, source, env, st);
    var arg := ParseFolderArgument(folderArg, env.isNumeric, env.toInt);
    var storage := env.storages(arg.storageUid);
    if r.report.Done? || r.report.Aborted? {
      var cutoff := env.strtotime("-" + age).value;
      var files := FileRepository.FindAllFilesInRecyclerFolder(st.repo, env.host.matches, storage.folders[arg.path],
                                                               recursive, fileDenyPattern);
      var ageOf := AgeOf(source, env.host.tables.sysFile);
      var kept := KeepOlder(files, ageOf, cutoff);
      forall f ensures f in Values(kept) <==> f in Values(files) && ageOf(f) <= cutoff {
        ValuesMembership(kept, f);
        ValuesMembership(files, f);
      }
    }
  }

  /** Without an uncaught exception, every candidate is deleted or reported
      once: the count is the number of successful deletes. */
  lemma RunCount(folderArg: string, age: string, fileDenyPattern: Option<string>, recursive: bool,
                 source: AgeSource, env: Environment, st: State)
    ensures var r := Run(folderArg, age, fileDenyPattern, recursive, false, source, env, st);
      r.report.Done? ==>
        && r.count == |Filter(r.candidates, DeleteSucceeds(env.deletes))|
        && r.lines == Map(Filter(r.candidates, DeleteFails(env.deletes)), FailureLineOf(env.deletes))
  {
    var r := Run(folderArg, age, fileDenyPattern, recursive, false, source, env, st);
    if r.report.Done? {
      DeleteBatchCompletes(r.candidates, env.deletes);
    }
  }

  /** A file the listener stamped at a nonzero `now` is aged from its move:
      it is purged exactly when `now` is not newer than the cutoff. */
  lemma MovedFileAgesFromMove(table: SysFileTable, f: File, now: int, cutoff: int)
    requires f.kind == PlainFile && f.uid in table && now != 0
    ensures var stamped := ResourceStorageListener.PostFileMove(table, f, now);
      && AgeOf(LastMoveOrModification, stamped)(f) == now
      && (AgeOf(LastMoveOrModification, stamped)(f) <= cutoff <==> now <= cutoff)
  {
    ResourceStorageListener.StampIsReadBack(table, f, now);
  }
}

=== FILE: file_collection_service.dfy ===
/** FileCollectionService: which files belong to a file collection of type
    "folder" or "category" and are therefore never offered for cleanup.
    Collection items are loaded by the framework; `items(u)` is the list of
    file uids that collection `u` yields after `loadContents()`. */
module FileCollectionService {
  import opened Seqs
  import opened Text
  import opened Database

  /** The service instance: `fileUids` accumulates across `Initialize` calls. */
  datatype Service = Service(fileUids: seq<int>)

  /** A freshly constructed service. */
  const Fresh: Service := Service([])

  /** `storage:folder`, the combined identifier of a folder. */
  function CombinedIdentifier(storage: int, folder: string): string {
    IntToString(storage) + ":" + folder
  }

  /** Folder collections selected before TYPO3 12: same storage, a non-empty
      folder that starts with the scanned folder (the scanned folder itself
      included). */
  predicate SelectedBefore12(row: CollectionRow, storage: int, folder: string) {
    && row.kind == "folder"
    && row.storage == storage
    && row.folder != ""
    && folder <= row.folder
  }

  /** Folder collections selected from TYPO3 12 on, as the query is written:
      the combined column is compared for inequality with `storage:folder` but
      prefix-matched against the bare folder path. */
  predicate SelectedFrom12AsWritten(row: CollectionRow, storage: int, folder: string) {
    && row.kind == "folder"
    && row.folderIdentifier != CombinedIdentifier(storage, folder)
    && folder <= row.folderIdentifier
  }

  /** Folder collections selected from TYPO3 12 on, with the prefix match
      taken against `storage:folder`, the same value the inequality uses. */
  predicate SelectedFrom12(row: CollectionRow, storage: int, folder: string) {
    && row.kind == "folder"
    && row.folderIdentifier != CombinedIdentifier(storage, folder)
    && CombinedIdentifier(storage, folder) <= row.folderIdentifier
  }

  /** The folder-collection query the running major version runs, as
      written: from TYPO3 12 on that is `SelectedFrom12AsWritten`. */
  predicate SelectedByFolder(majorVersion: int, row: CollectionRow, storage: int, folder: string) {
    if majorVersion >= 12 then SelectedFrom12AsWritten(row, storage, folder)
    else SelectedBefore12(row, storage, folder)
  }

  /** Uids of the selected folder collections, in table order. */
  function FolderCollectionUids(rows: seq<CollectionRow>, majorVersion: int, storage: int, folder: string): (r: seq<int>)
    ensures forall u :: u in r <==>
      exists row :: row in rows && SelectedByFolder(majorVersion, row, storage, folder) && row.uid == u
  {
    var selected := Filter(rows, row => SelectedByFolder(majorVersion, row, storage, folder));
    var r := Map(selected, (row: CollectionRow) => row.uid);
    assert forall u :: u in r ==> exists row :: row in selected && row.uid == u by {
      forall u | u in r ensures exists row :: row in selected && row.uid == u {
        var i :| 0 <= i < |r| && r[i] == u;
        assert selected[i] in selected;
      }
    }
    assert forall row :: row in selected ==> row.uid in r by {
      forall row | row in selected ensures row.uid in r {
        var i :| 0 <= i < |selected| && selected[i] == row;
        assert r[i] == row.uid;
      }
    }
    r
  }

  /** Uids of every category collection, whatever folder is scanned. */
  function CategoryCollectionUids(rows: seq<CollectionRow>): (r: seq<int>)
    ensures forall u :: u in r <==> exists row :: row in rows && row.kind == "category" && row.uid == u
  {
    var selected := Filter(rows, (row: CollectionRow) => row.kind == "category");
    var r := Map(selected, (row: CollectionRow) => row.uid);
    assert forall u :: u in r ==> exists row :: row in selected && row.uid == u by {
      forall u | u in r ensures exists row :: row in selected && row.uid == u {
        var i :| 0 <= i < |r| && r[i] == u;
        assert selected[i] in selected;
      }
    }
    assert forall row :: row in selected ==> row.uid in r by {
      forall row | row in selected ensures row.uid in r {
        var i :| 0 <= i < |selected| && selected[i] == row;
        assert r[i] == row.uid;
      }
    }
    r
  }

  /** The collections `initialize` loads: the union of both selections,
      each uid once. */
  function CollectionUidsToLoad(rows: seq<CollectionRow>, majorVersion: int, storage: int, folder: string): (r: seq<int>)
    ensures Distinct(r)
    ensures forall u :: u in r <==>
      exists row :: row in rows && row.uid == u &&
        (SelectedByFolder(majorVersion, row, storage, folder) || row.kind == "category")
  {
    Unique(FolderCollectionUids(rows, majorVersion, storage, folder) + CategoryCollectionUids(rows))
  }

  /** Merges the items of collections `uids`, one collection at a time, into
      `acc` with `array_unique(array_merge(acc, items))`. */
  function LoadCollections(acc: seq<int>, uids: seq<int>, items: int -> seq<int>): (r: seq<int>)
    ensures forall x :: x in r <==> x in acc || exists u :: u in uids && x in items(u)
    ensures Distinct(acc) ==> acc <= r && Distinct(r)
    decreases |uids|
  {
    if uids == [] then acc
    else
      var merged := Unique(acc + items(uids[0]));
      assert Distinct(acc) ==> acc <= merged by {
        if Distinct(acc) {
          UniqueExtends(acc, items(uids[0]));
        }
      }
      var r := LoadCollections(merged, uids[1..], items);
      assert forall u :: u in uids <==> u == uids[0] || u in uids[1..];
      r
  }

  /** `initialize(storage, folder)`: adds the items of every selected
      collection to `fileUids`. The list is never reset. */
  function Initialize(s: Service, rows: seq<CollectionRow>, majorVersion: int, storage: int, folder: string, items: int -> seq<int>): (s': Service)
    ensures Distinct(s.fileUids) ==> s.fileUids <= s'.fileUids && Distinct(s'.fileUids)
    ensures forall x :: x in s'.fileUids <==>
      x in s.fileUids || exists u :: u in CollectionUidsToLoad(rows, majorVersion, storage, folder) && x in items(u)
  {
    Service(LoadCollections(s.fileUids, CollectionUidsToLoad(rows, majorVersion, storage, folder), items))
  }

  /** `isFileCollectionFile`: strict `in_array` of the file's uid. */
  predicate IsFileCollectionFile(s: Service, fileUid: int) {
    fileUid in s.fileUids
  }

  /** After `initialize`, a file counts as a collection file exactly when it
      already did or some selected folder collection or any category
      collection lists it. */
  lemma InitializeMembership(s: Service, rows: seq<CollectionRow>, majorVersion: int, storage: int, folder: string,
                             items: int -> seq<int>, fileUid: int)
    ensures IsFileCollectionFile(Initialize(s, rows, majorVersion, storage, folder, items), fileUid) <==>
      || IsFileCollectionFile(s, fileUid)
      || exists row :: row in rows && fileUid in items(row.uid) &&
           (SelectedByFolder(majorVersion, row, storage, folder) || row.kind == "category")
  {
    var toLoad := CollectionUidsToLoad(rows, majorVersion, storage, folder);
    if exists row :: row in rows && fileUid in items(row.uid) &&
         (SelectedByFolder(majorVersion, row, storage, folder) || row.kind == "category") {
      var row :| row in rows && fileUid in items(row.uid) &&
         (SelectedByFolder(majorVersion, row, storage, folder) || row.kind == "category");
      assert row.uid in toLoad;
    }
  }

  /** Calling `initialize` again with the same arguments adds nothing. */
  lemma InitializeIdempotent(s: Service, rows: seq<CollectionRow>, majorVersion: int, storage: int, folder: string,
                             items: int -> seq<int>)
    ensures var once := Initialize(s, rows, majorVersion, storage, folder, items);
      forall x :: x in Initialize(once, rows, majorVersion, storage, folder, items).fileUids <==> x in once.fileUids
  {
  }

  /** Category collections are loaded whatever storage and folder are scanned. */
  lemma CategoryCollectionsIgnoreScope(rows: seq<CollectionRow>, majorVersion: int, storage: int, folder: string, row: CollectionRow)
    requires row in rows && row.kind == "category"
    ensures row.uid in CollectionUidsToLoad(rows, majorVersion, storage, folder)
  {
  }

  /** From TYPO3 12 on, a collection stored as `storage':path` is selected
      exactly when the TYPO3 11 query would select its `storage'`/`path`
      columns and `path` is not the scanned folder itself. */
  lemma From12AgreesWithBefore12(row: CollectionRow, storage: int, folder: string)
    requires row.folder != ""
    requires row.folderIdentifier == CombinedIdentifier(row.storage, row.folder)
    ensures SelectedFrom12(row, storage, folder) <==>
      SelectedBefore12(row, storage, folder) && row.folder != folder
  {
    PrefixAcrossSeparator(IntToString(storage), folder, IntToString(row.storage), row.folder, ':');
    if IntToString(storage) == IntToString(row.storage) {
      IntToStringInjective(storage, row.storage);
    }
    if row.folderIdentifier == CombinedIdentifier(storage, folder) {
      assert IntToString(storage) + [':'] + folder == IntToString(row.storage) + [':'] + row.folder;
      SplitAtFirstUnique(row.folderIdentifier, ':', IntToString(storage), folder);
      SplitAtFirstUnique(row.folderIdentifier, ':', IntToString(row.storage), row.folder);
    }
  }

  /** The query as written never selects a collection stored as
      `storage':path` when the scanned folder path starts with '/': a
      combined identifier starts with a digit or '-'. */
  lemma From12AsWrittenNeverSelects(row: CollectionRow, storage: int, folder: string)
    requires row.folderIdentifier == CombinedIdentifier(row.storage, row.folder)
    requires |folder| > 0 && folder[0] == '/'
    ensures !SelectedFrom12AsWritten(row, storage, folder)
  {
    assert row.folderIdentifier[0] == IntToString(row.storage)[0];
  }

  /** What the as-written query means for `initialize`: from TYPO3 12 on,
      scanning a '/'-rooted folder loads the category collections and no
      folder collection at all. */
  lemma From12LoadsOnlyCategories(rows: seq<CollectionRow>, majorVersion: int, storage: int, folder: string)
    requires majorVersion >= 12
    requires forall row :: row in rows ==> row.folderIdentifier == CombinedIdentifier(row.storage, row.folder)
    requires |folder| > 0 && folder[0] == '/'
    ensures forall u :: u in CollectionUidsToLoad(rows, majorVersion, storage, folder) <==>
      exists row :: row in rows && row.kind == "category" && row.uid == u
  {
    forall row | row in rows ensures !SelectedByFolder(majorVersion, row, storage, folder) {
      From12AsWrittenNeverSelects(row, storage, folder);
    }
  }

  /** Scanning "1:/images/" with a folder collection on "1:/images/gallery/":
      the query as written misses it, the corrected selection finds it. */
  lemma From12Example()
    ensures var row := CollectionRow(7, "folder", 1, "/images/gallery/", "1:/images/gallery/");
      && !SelectedFrom12AsWritten(row, 1, "/images/")
      && SelectedFrom12(row, 1, "/images/")
  {
    var row := CollectionRow(7, "folder", 1, "/images/gallery/", "1:/images/gallery/");
    assert IntToString(1) == "1";
    assert row.folderIdentifier[0] == '1';
    assert CombinedIdentifier(1, "/images/") == "1:/images/";
  }
}

=== FILE: file_command_controller.dfy ===
/** The legacy Extbase command controller: the same cleanup and
    empty-recycler runs with its own defaults, no path deny pattern, no exit
    code, and a recycler age taken from the modification time alone. */
module FileCommandController {
  import opened Wrappers
  import opened Resource
  import opened Database
  import opened CommandSupport
  import CleanupCommand
  import EmptyRecyclerCommand
  import FileRepository

  /** `cleanupCommand($folder, $age = '1 month', $recursive = true,
      $verbose = false, $dryRun = false, $fileDenyPattern = '/index.html/i')`;
      `verbose` only adds output. */
  function Cleanup(env: Environment, st: State, folder: string, age: string := "1 month", recursive: bool := true,
                   dryRun: bool := false, fileDenyPattern: string := "/index.html/i"): (r: Outcome)
    ensures r.report.AgeNotRecognized? ==> r.effects == [] && r.state == st
    ensures !r.report.Aborted?
  {
    CleanupCommand.Run(folder, age, Some(fileDenyPattern), None, recursive, dryRun, env, st)
  }

  /** `emptyRecyclerCommand(...)` with the same defaults. */
  function EmptyRecycler(env: Environment, st: State, folder: string, age: string := "1 month", recursive: bool := true,
                         dryRun: bool := false, fileDenyPattern: string := "/index.html/i"): (r: Outcome)
    ensures r.report.AgeNotRecognized? ==> r.effects == []
    ensures r.state == st
  {
    EmptyRecyclerCommand.Run(folder, age, Some(fileDenyPattern), recursive, dryRun, EmptyRecyclerCommand.ModificationOnly, env, st)
  }

  /** Passing no path deny pattern means the configured one applies: the
      legacy cleanup behaves like the console command given the extension's
      configured pattern. */
  lemma CleanupUsesConfiguredPathPattern(env: Environment, st: State, folder: string, age: string, recursive: bool,
                                         dryRun: bool, fileDenyPattern: string)
    ensures Cleanup(env, st, folder, age, recursive, dryRun, fileDenyPattern)
         == CleanupCommand.Run(folder, age, Some(fileDenyPattern), Some(st.repo.config.pathDenyPattern), recursive, dryRun, env, st)
  {
  }

  /** The legacy recycler age ignores `last_move`: which files are deleted
      does not depend on the `sys_file` table at all. */
  lemma EmptyRecyclerIgnoresLastMove(env: Environment, st: State, folder: string, age: string, recursive: bool,
                                     dryRun: bool, fileDenyPattern: string, other: SysFileTable)
    ensures var env' := env.(host := env.host.(tables := env.host.tables.(sysFile := other)));
      EmptyRecycler(env, st, folder, age, recursive, dryRun, fileDenyPattern).candidates
        == EmptyRecycler(env', st, folder, age, recursive, dryRun, fileDenyPattern).candidates
  {
    var env' := env.(host := env.host.(tables := env.host.tables.(sysFile := other)));
    assert EmptyRecyclerCommand.AgeOf(EmptyRecyclerCommand.ModificationOnly, env.host.tables.sysFile)
        == EmptyRecyclerCommand.AgeOf(EmptyRecyclerCommand.ModificationOnly, other);
  }
}

=== FILE: file_facade.dfy ===
/** FileFacade: the view wrapper around a file. Dynamic checks such as
    `is_callable([$resource, 'checkActionPermission'])` become the oracle
    `callable(file, method)`; the framework's answers become oracles too. */
module FileFacade {
  import opened Wrappers
  import opened Text
  import opened Resource

  /** A facade wraps exactly one resource. */
  datatype Facade = Facade(resource: File)

  /** The static `$lastReferenceTimestamps` cache, shared by every facade. */
  type TimestampCache = map<int, int>

  /** What the reference-timestamp query would yield for a uid, present only
      when a query builder is set on the facade. */
  type TimestampQuery = int -> Option<int>

  /** `getLastReferenceTimestamp()`: returns the timestamp and the cache after
      the call. A uid of 0 or less answers 0 and leaves the cache alone; any
      other uid is looked up once and then answered from the cache. */
  function LastReferenceTimestamp(cache: TimestampCache, f: Facade, query: Option<TimestampQuery>): (r: (int, TimestampCache))
    ensures f.resource.uid <= 0 ==> r == (0, cache)
    ensures f.resource.uid > 0 ==> f.resource.uid in r.1 && r.0 == r.1[f.resource.uid]
    ensures f.resource.uid > 0 && f.resource.uid in cache ==> r == (cache[f.resource.uid], cache)
    ensures f.resource.uid > 0 && f.resource.uid !in cache && query.None? ==> r == (0, cache[f.resource.uid := 0])
    ensures forall u :: u in cache ==> u in r.1 && r.1[u] == cache[u]
    ensures forall u :: u in r.1 ==> u in cache || u == f.resource.uid
  {
    var uid := f.resource.uid;
    if uid <= 0 then (0, cache)
    else if uid in cache then (cache[uid], cache)
    else
      var stored := match query
        case None => 0
        case Some(q) => q(uid).GetOr(0);
      (stored, cache[uid := stored])
  }

  /** A second call for the same uid, through any facade, answers what the
      first stored and does not touch the cache again. */
  lemma LastReferenceTimestampMemoised(cache: TimestampCache, f: Facade, g: Facade,
                                       q1: Option<TimestampQuery>, q2: Option<TimestampQuery>)
    requires f.resource.uid == g.resource.uid
    ensures var (first, cache1) := LastReferenceTimestamp(cache, f, q1);
      LastReferenceTimestamp(cache1, g, q2) == (first, cache1)
  {
  }

  /** A lookup through one facade does not change what later lookups through
      other facades answer: each uid keeps the answer it would have had
      first. */
  lemma LookupsCommute(cache: TimestampCache, f: Facade, gs: seq<Facade>, query: Option<TimestampQuery>)
    ensures forall g :: g in gs ==>
      LastReferenceTimestamp(LastReferenceTimestamp(cache, f, query).1, g, query).0 == LastReferenceTimestamp(cache, g, query).0
  {
  }

  /** With no query builder set (the constructor never sets one) every
      answer is 0. */
  lemma LastReferenceTimestampWithoutQuery(cache: TimestampCache, f: Facade)
    requires forall u :: u in cache ==> cache[u] == 0
    ensures LastReferenceTimestamp(cache, f, None).0 == 0
    ensures forall u :: u in LastReferenceTimestamp(cache, f, None).1 ==> LastReferenceTimestamp(cache, f, None).1[u] == 0
  {
  }

  /** `getExtension()`: the resource's extension in upper case. */
  function Extension(f: Facade): (r: string)
    ensures |r| == |f.resource.extension|
    ensures forall i :: 0 <= i < |r| ==> !('a' <= r[i] <= 'z')
    ensures forall i :: 0 <= i < |r| ==> r[i] == f.resource.extension[i] || ('a' <= f.resource.extension[i] <= 'z' && r[i] == UpperChar(f.resource.extension[i]))
    ensures ToUpper(r) == r
  {
    var r := ToUpper(f.resource.extension);
    assert ToUpper(r) == r;
    r
  }

  /** Shared body of the permission getters: `checkActionPermission(action)`
      when the resource has that method, `false` otherwise. */
  function ActionPermission(f: Facade, action: string, callable: (File, string) -> bool, check: (File, string) -> bool): (b: bool)
    ensures b ==> callable(f.resource, "checkActionPermission")
    ensures callable(f.resource, "checkActionPermission") ==> b == check(f.resource, action)
  {
    callable(f.resource, "checkActionPermission") && check(f.resource, action)
  }

  function IsReadable(f: Facade, callable: (File, string) -> bool, check: (File, string) -> bool): bool {
    ActionPermission(f, "read", callable, check)
  }

  function IsWritable(f: Facade, callable: (File, string) -> bool, check: (File, string) -> bool): bool {
    ActionPermission(f, "write", callable, check)
  }

  function IsReplaceable(f: Facade, callable: (File, string) -> bool, check: (File, string) -> bool): bool {
    ActionPermission(f, "replace", callable, check)
  }

  function IsRenamable(f: Facade, callable: (File, string) -> bool, check: (File, string) -> bool): bool {
    ActionPermission(f, "rename", callable, check)
  }

  function IsDeletable(f: Facade, callable: (File, string) -> bool, check: (File, string) -> bool): bool {
    ActionPermission(f, "delete", callable, check)
  }

  /** A resource without `checkActionPermission` is denied every action. */
  lemma NoPermissionsWithoutCheck(f: Facade, callable: (File, string) -> bool, check: (File, string) -> bool)
    requires !callable(f.resource, "checkActionPermission")
    ensures !IsReadable(f, callable, check) && !IsWritable(f, callable, check)
    ensures !IsReplaceable(f, callable, check) && !IsRenamable(f, callable, check)
    ensures !IsDeletable(f, callable, check)
  {
  }

  /** `getMetadataUid()`: the `uid` entry of `_getMetadata()` when the
      resource has that method and the entry is set (non-null), else 0. */
  function MetadataUid(f: Facade, callable: (File, string) -> bool, metadata: File -> map<string, Option<int>>): (uid: int)
    ensures !callable(f.resource, "_getMetadata") ==> uid == 0
    ensures callable(f.resource, "_getMetadata") && "uid" in metadata(f.resource) && metadata(f.resource)["uid"].Some? ==>
      uid == metadata(f.resource)["uid"].value
    ensures uid != 0 ==> "uid" in metadata(f.resource) && metadata(f.resource)["uid"] == Some(uid)
  {
    if callable(f.resource, "_getMetadata") then
      var md := metadata(f.resource);
      if "uid" in md && md["uid"].Some? then md["uid"].value else 0
    else 0
  }

  /** The facade is a plain wrapper: two facades of the same resource report
      the same metadata uid, and a nonzero one exactly when the resource
      answers `_getMetadata` with a set, nonzero `uid`. */
  lemma MetadataUidOfResource(f: Facade, g: Facade, callable: (File, string) -> bool,
                              metadata: File -> map<string, Option<int>>)
    requires f.resource == g.resource
    ensures MetadataUid(f, callable, metadata) == MetadataUid(g, callable, metadata)
    ensures MetadataUid(f, callable, metadata) != 0 <==>
      && callable(f.resource, "_getMetadata")
      && "uid" in metadata(f.resource)
      && metadata(f.resource)["uid"].Some?
      && metadata(f.resource)["uid"].value != 0
  {
  }

  /** `__call`: forwards an unknown method to the resource when it has one,
      otherwise answers null (`None`). */
  function Call<V>(f: Facade, methodName: string, arguments: seq<V>, callable: (File, string) -> bool,
                   invoke: (File, string, seq<V>) -> V): (r: Option<V>)
    ensures r.None? <==> !callable(f.resource, methodName)
    ensures r.Some? ==> r.value == invoke(f.resource, methodName, arguments)
  {
    if callable(f.resource, methodName) then Some(invoke(f.resource, methodName, arguments)) else None
  }
}

=== FILE: file_repository.dfy ===
/** FileRepository: finds the files of a folder that nothing uses, gathers the
    files waiting in `_recycler_` folders, counts references and reads the
    last-move stamp. `matches(pattern, subject)` stands for `preg_match`. */
module FileRepository {
  import opened Wrappers
  import opened Seqs
  import opened Text
  import opened PhpArray
  import opened Resource
  import opened Database
  import FCS = FileCollectionService
  import opened FileFacade

  /** The extension settings read in the constructor. */
  datatype Configuration = Configuration(fileNameDenyPattern: string, pathDenyPattern: string)

  /** The repository singleton: its settings and its collection service. */
  datatype Repository = Repository(config: Configuration, collections: FCS.Service)

  /** What the repository consults besides its own state: the tables, the
      running TYPO3 major version, the items each collection loads, and
      `preg_match`. */
  datatype Host = Host(
    tables: Tables,
    majorVersion: int,
    items: int -> seq<int>,
    matches: (string, string) -> bool)

  /** A `sys_refindex` row that counts as a use of file `uid`: it points at
      `sys_file` row `uid` from any table but `sys_file_metadata`. */
  predicate CountsAsUse(row: RefIndexRow, uid: int) {
    row.refTable == "sys_file" && row.refUid == uid && row.tablename != "sys_file_metadata"
  }

  /** A `sys_file_reference` row whose local side is file `uid`. */
  predicate ReferencesFile(row: FileReferenceRow, uid: int) {
    row.tableLocal == "sys_file" && row.uidLocal == uid
  }

  function RefIndexCount(rows: seq<RefIndexRow>, uid: int): nat {
    |Filter(rows, row => CountsAsUse(row, uid))|
  }

  function FileReferenceCount(rows: seq<FileReferenceRow>, uid: int): nat {
    |Filter(rows, row => ReferencesFile(row, uid))|
  }

  /** An empty filter result means no element passed. */
  lemma FilterEmpty<T(!new)>(s: seq<T>, p: T -> bool)
    ensures |Filter(s, p)| == 0 <==> forall x :: x in s ==> !p(x)
  {
    var r := Filter(s, p);
    if |r| != 0 {
      assert r[0] in r;
    }
  }

  /** `getReferenceCount`: the larger of the two counts. */
  function ReferenceCount(tables: Tables, uid: int): (n: nat)
    ensures n >= RefIndexCount(tables.refIndex, uid)
    ensures n >= FileReferenceCount(tables.fileReferences, uid)
    ensures n == RefIndexCount(tables.refIndex, uid) || n == FileReferenceCount(tables.fileReferences, uid)
    ensures n == 0 <==>
      && (forall row :: row in tables.refIndex ==> !CountsAsUse(row, uid))
      && (forall row :: row in tables.fileReferences ==> !ReferencesFile(row, uid))
  {
    FilterEmpty(tables.refIndex, row => CountsAsUse(row, uid));
    FilterEmpty(tables.fileReferences, row => ReferencesFile(row, uid));
    var a := RefIndexCount(tables.refIndex, uid);
    var b := FileReferenceCount(tables.fileReferences, uid);
    if a >= b then a else b
  }

  /** A deny-pattern argument of `null` falls back to the configured one. */
  function EffectivePattern(argument: Option<string>, configured: string): string {
    argument.GetOr(configured)
  }

  /** First stage: not in a `_recycler_` folder, not a processed file, and
      not matched by a non-empty file-name or path deny pattern. */
  predicate PassesFirstStage(f: File, filePattern: string, pathPattern: string, matches: (string, string) -> bool) {
    if f.parentName == RecyclerName || f.kind == ProcessedFile then false
    else if !IsEmpty(filePattern) && matches(filePattern, f.name) then false
    else if !IsEmpty(pathPattern) && matches(pathPattern, f.publicUrl) then false
    else true
  }

  /** Every condition a file must meet to be reported unused, stated on the
      tables directly. */
  predicate IsUnused(f: File, filePattern: string, pathPattern: string, host: Host, collectionFiles: seq<int>) {
    && f.parentName != RecyclerName
    && f.kind != ProcessedFile
    && (IsEmpty(filePattern) || !host.matches(filePattern, f.name))
    && (IsEmpty(pathPattern) || !host.matches(pathPattern, f.publicUrl))
    && (forall row :: row in host.tables.refIndex ==> !CountsAsUse(row, f.uid))
    && (forall row :: row in host.tables.fileReferences ==> !ReferencesFile(row, f.uid))
    && f.uid !in collectionFiles
  }

  /** The resources behind a list of facades. */
  function Resources(fs: seq<Facade>): (r: seq<File>)
    ensures |r| == |fs|
    ensures forall i :: 0 <= i < |fs| ==> r[i] == fs[i].resource
  {
    Map(fs, (x: Facade) => x.resource)
  }

  /** The first pass as a filter predicate. */
  function FirstStage(filePattern: string, pathPattern: string, matches: (string, string) -> bool): File -> bool {
    f => PassesFirstStage(f, filePattern, pathPattern, matches)
  }

  /** The second pass: reference count exactly 0. */
  function SecondStage(tables: Tables): File -> bool {
    (f: File) => ReferenceCount(tables, f.uid) == 0
  }

  /** The third pass: not a collection file. */
  function ThirdStage(service: FCS.Service): File -> bool {
    (f: File) => !FCS.IsFileCollectionFile(service, f.uid)
  }

  /** `IsUnused` as a filter predicate. */
  function Unused(filePattern: string, pathPattern: string, host: Host, collectionFiles: seq<int>): File -> bool {
    f => IsUnused(f, filePattern, pathPattern, host, collectionFiles)
  }

  /** The three passes together keep exactly the unused files. */
  lemma StagesKeepUnused(listing: seq<File>, filePattern: string, pathPattern: string, host: Host, service: FCS.Service)
    ensures Filter(Filter(Filter(listing, FirstStage(filePattern, pathPattern, host.matches)), SecondStage(host.tables)), ThirdStage(service))
         == Filter(listing, Unused(filePattern, pathPattern, host, service.fileUids))
  {
    var p1 := FirstStage(filePattern, pathPattern, host.matches);
    var p2 := SecondStage(host.tables);
    var p3 := ThirdStage(service);
    var unused := Unused(filePattern, pathPattern, host, service.fileUids);
    FilterFilter(listing, p1, p2);
    FilterFilter(listing, And(p1, p2), p3);
    forall f | f in listing ensures And(And(p1, p2), p3)(f) == unused(f) {
      StagesAgree(f, filePattern, pathPattern, host, service);
    }
    FilterCongruent(listing, And(And(p1, p2), p3), unused);
  }

  /** One file passes all three passes exactly when it is unused. */
  lemma StagesAgree(f: File, filePattern: string, pathPattern: string, host: Host, service: FCS.Service)
    ensures (FirstStage(filePattern, pathPattern, host.matches)(f) && SecondStage(host.tables)(f) && ThirdStage(service)(f))
         == IsUnused(f, filePattern, pathPattern, host, service.fileUids)
  {
    var _ := ReferenceCount(host.tables, f.uid);
  }

  /** `findUnusedFile(folder, recursive, fileDenyPattern, pathDenyPattern)`
      over `listing`, the folder's (possibly recursive) file list. It first
      initializes the collection service for the folder, then filters the
      listing in three passes and wraps each survivor in a facade. */
  function FindUnusedFile(repo: Repository, host: Host, storage: int, folderIdentifier: string,
                          listing: seq<File>, fileDenyPattern: Option<string>, pathDenyPattern: Option<string>)
    : (r: (seq<Facade>, Repository))
    ensures r.1.config == repo.config
    ensures r.1.collections ==
      FCS.Initialize(repo.collections, host.tables.collections, host.majorVersion, storage, folderIdentifier, host.items)
    ensures Resources(r.0) ==
      Filter(listing, Unused(EffectivePattern(fileDenyPattern, repo.config.fileNameDenyPattern),
        EffectivePattern(pathDenyPattern, repo.config.pathDenyPattern), host, r.1.collections.fileUids))
  {
    var service := FCS.Initialize(repo.collections, host.tables.collections, host.majorVersion, storage, folderIdentifier, host.items);
    var filePattern := EffectivePattern(fileDenyPattern, repo.config.fileNameDenyPattern);
    var pathPattern := EffectivePattern(pathDenyPattern, repo.config.pathDenyPattern);
    var stage1 := Filter(listing, FirstStage(filePattern, pathPattern, host.matches));
    var stage2 := Filter(stage1, SecondStage(host.tables));
    var stage3 := Filter(stage2, ThirdStage(service));
    var result := Map(stage3, (f: File) => Facade(f));
    StagesKeepUnused(listing, filePattern, pathPattern, host, service);
    assert Resources(result) == stage3;
    (result, Repository(repo.config, service))
  }

  /** The unused files are exactly the listed files meeting every condition,
      in listing order. */
  lemma FindUnusedFileExact(repo: Repository, host: Host, storage: int, folderIdentifier: string,
                            listing: seq<File>, fileDenyPattern: Option<string>, pathDenyPattern: Option<string>)
    ensures var (facades, repo') := FindUnusedFile(repo, host, storage, folderIdentifier, listing, fileDenyPattern, pathDenyPattern);
      && IsSubsequence(Resources(facades), listing)
      && forall f :: f in Resources(facades) <==> (f in listing &&
           IsUnused(f, EffectivePattern(fileDenyPattern, repo.config.fileNameDenyPattern),
             EffectivePattern(pathDenyPattern, repo.config.pathDenyPattern), host, repo'.collections.fileUids))
  {
    var (facades, repo') := FindUnusedFile(repo, host, storage, folderIdentifier, listing, fileDenyPattern, pathDenyPattern);
    FilterIsSubsequence(listing, Unused(EffectivePattern(fileDenyPattern, repo.config.fileNameDenyPattern),
             EffectivePattern(pathDenyPattern, repo.config.pathDenyPattern), host, repo'.collections.fileUids));
  }

  /** No reported file has a reference, in either table. */
  lemma UnusedFilesHaveNoReferences(repo: Repository, host: Host, storage: int, folderIdentifier: string,
                                   listing: seq<File>, fileDenyPattern: Option<string>, pathDenyPattern: Option<string>, f: File)
    requires f in Resources(FindUnusedFile(repo, host, storage, folderIdentifier, listing, fileDenyPattern, pathDenyPattern).0)
    ensures ReferenceCount(host.tables, f.uid) == 0
    ensures RefIndexCount(host.tables.refIndex, f.uid) == 0 && FileReferenceCount(host.tables.fileReferences, f.uid) == 0
  {
  }

  /** Scanning twice in a row reports the same files: the second
      initialization adds no collection files. */
  lemma FindUnusedFileIdempotent(repo: Repository, host: Host, storage: int, folderIdentifier: string,
                                 listing: seq<File>, fileDenyPattern: Option<string>, pathDenyPattern: Option<string>)
    ensures var (first, repo1) := FindUnusedFile(repo, host, storage, folderIdentifier, listing, fileDenyPattern, pathDenyPattern);
      FindUnusedFile(repo1, host, storage, folderIdentifier, listing, fileDenyPattern, pathDenyPattern).0 == first
  {
    var (first, repo1) := FindUnusedFile(repo, host, storage, folderIdentifier, listing, fileDenyPattern, pathDenyPattern);
    var (second, repo2) := FindUnusedFile(repo1, host, storage, folderIdentifier, listing, fileDenyPattern, pathDenyPattern);
    var filePattern := EffectivePattern(fileDenyPattern, repo.config.fileNameDenyPattern);
    var pathPattern := EffectivePattern(pathDenyPattern, repo.config.pathDenyPattern);
    FCS.InitializeIdempotent(repo.collections, host.tables.collections, host.majorVersion, storage, folderIdentifier, host.items);
    FilterCongruent(listing,
      Unused(filePattern, pathPattern, host, repo1.collections.fileUids),
      Unused(filePattern, pathPattern, host, repo2.collections.fileUids));
    assert Resources(first) == Resources(second);
    assert first == second by {
      forall i | 0 <= i < |first| ensures first[i] == second[i] {
        assert first[i].resource == Resources(first)[i] == Resources(second)[i] == second[i].resource;
      }
    }
  }

  /** A `null` deny pattern is the configured one. */
  lemma NullPatternsAreConfigured(repo: Repository, host: Host, storage: int, folderIdentifier: string, listing: seq<File>)
    ensures FindUnusedFile(repo, host, storage, folderIdentifier, listing, None, None)
         == FindUnusedFile(repo, host, storage, folderIdentifier, listing,
                           Some(repo.config.fileNameDenyPattern), Some(repo.config.pathDenyPattern))
  {
  }

  /** An empty deny pattern (`""` or `"0"`, which PHP's `empty` accepts)
      switches its filter off: with both patterns empty, `preg_match` is
      never consulted and the result is the same whatever it would say. */
  lemma EmptyPatternsDisableFilters(repo: Repository, host: Host, storage: int, folderIdentifier: string,
                                    listing: seq<File>, filePattern: string, pathPattern: string,
                                    otherMatches: (string, string) -> bool)
    requires IsEmpty(filePattern) && IsEmpty(pathPattern)
    ensures FindUnusedFile(repo, host, storage, folderIdentifier, listing, Some(filePattern), Some(pathPattern)).0
         == FindUnusedFile(repo, host.(matches := otherMatches), storage, folderIdentifier, listing,
                           Some(filePattern), Some(pathPattern)).0
  {
    var host' := host.(matches := otherMatches);
    var (first, repo1) := FindUnusedFile(repo, host, storage, folderIdentifier, listing, Some(filePattern), Some(pathPattern));
    var (second, repo2) := FindUnusedFile(repo, host', storage, folderIdentifier, listing, Some(filePattern), Some(pathPattern));
    FilterCongruent(listing,
      Unused(filePattern, pathPattern, host, repo1.collections.fileUids),
      Unused(filePattern, pathPattern, host', repo2.collections.fileUids));
    assert Resources(first) == Resources(second);
    assert first == second by {
      forall i | 0 <= i < |first| ensures first[i] == second[i] {
        assert first[i].resource == Resources(first)[i] == Resources(second)[i] == second[i].resource;
      }
    }
  }

  /** The direct sub folder called `_recycler_`, if there is one. */
  function RecyclerChild(cs: seq<Folder>): (r: Option<Folder>)
    ensures r.None? <==> forall c :: c in cs ==> c.name != RecyclerName
    ensures r.Some? ==> r.value in cs && r.value.name == RecyclerName
  {
    if cs == [] then None
    else if cs[0].name == RecyclerName then Some(cs[0])
    else RecyclerChild(cs[1..])
  }

  /** The `_recycler_` folders to empty: in non-recursive mode the direct
      child of that name, if any; in recursive mode every folder of that name
      anywhere below. */
  function RecyclerFolders(folder: Folder, recursive: bool): (r: seq<Folder>)
    ensures !recursive ==> |r| <= 1 && (r == [] <==> forall c :: c in folder.subfolders ==> c.name != RecyclerName)
    ensures !recursive ==> forall d :: d in r ==> d in folder.subfolders && d.name == RecyclerName
    ensures recursive ==> forall d :: d in r <==> IsBelow(folder, d) && d.name == RecyclerName
  {
    if !recursive then
      match RecyclerChild(folder.subfolders)
      case None => []
      case Some(d) => [d]
    else
      var r := Filter(Descendants(folder), (d: Folder) => d.name == RecyclerName);
      assert forall d :: d in r <==> IsBelow(folder, d) && d.name == RecyclerName by {
        forall d ensures d in r <==> IsBelow(folder, d) && d.name == RecyclerName {
          DescendantsAreBelow(folder, d);
        }
      }
      r
  }

  /** `foreach ($folders as $folder) $files += $folder->getFiles();` */
  function MergeFiles(acc: Array<string, File>, folders: seq<Folder>): (r: Array<string, File>)
    ensures acc <= r
    ensures forall e :: e in r ==> e in acc || exists d :: d in folders && e in d.files
    ensures forall d, k :: d in folders && k in Keys(d.files) ==> k in Keys(r)
    decreases |folders|
  {
    if folders == [] then acc
    else
      var r := MergeFiles(UnionAssign(acc, folders[0].files), folders[1..]);
      assert forall d :: d in folders <==> d == folders[0] || d in folders[1..];
      r
  }

  /** A key keeps the value it had when it first arrived: from `acc`, or else
      from the first folder whose listing has it. */
  lemma {:induction false} MergeFilesFirstWins(acc: Array<string, File>, folders: seq<Folder>, i: nat, k: string)
    requires i < |folders| && k in Keys(folders[i].files) && k !in Keys(acc)
    requires forall j :: 0 <= j < i ==> k !in Keys(folders[j].files)
    ensures Get(MergeFiles(acc, folders), k) == Get(folders[i].files, k)
    decreases |folders|
  {
    var next := UnionAssign(acc, folders[0].files);
    var later := folders[1..];
    assert MergeFiles(acc, folders) == MergeFiles(next, later);
    UnionAssignGet(acc, folders[0].files, k);
    if i == 0 {
      assert Keys(next) == Keys(acc) + Keys(folders[0].files);
      MergeFilesKeeps(next, later, k);
    } else {
      assert k !in Keys(folders[0].files);
      assert Keys(next) == Keys(acc) + Keys(folders[0].files);
      assert later[i - 1] == folders[i];
      forall j | 0 <= j < i - 1 ensures k !in Keys(later[j].files) {
        assert later[j] == folders[j + 1];
      }
      MergeFilesFirstWins(next, later, i - 1, k);
    }
  }

  /** A key already merged is never overwritten by later folders. */
  lemma {:induction false} MergeFilesKeeps(acc: Array<string, File>, folders: seq<Folder>, k: string)
    requires k in Keys(acc)
    ensures Get(MergeFiles(acc, folders), k) == Get(acc, k)
    decreases |folders|
  {
    if folders != [] {
      var next := UnionAssign(acc, folders[0].files);
      UnionAssignGet(acc, folders[0].files, k);
      MergeFilesKeeps(next, folders[1..], k);
    }
  }

  /** `findAllFilesInRecyclerFolder(folder, recursive, fileDenyPattern)`:
      the merged recycler listings, without files whose name a non-empty deny
      pattern matches (`null` means the configured pattern). */
  function FindAllFilesInRecyclerFolder(repo: Repository, matches: (string, string) -> bool, folder: Folder,
                                        recursive: bool, fileDenyPattern: Option<string>): (r: Array<string, File>)
    ensures forall e :: e in r ==> exists d :: d in RecyclerFolders(folder, recursive) && e in d.files
    ensures forall e :: e in r ==>
      var p := EffectivePattern(fileDenyPattern, repo.config.fileNameDenyPattern);
      IsEmpty(p) || !matches(p, e.value.name)
    ensures forall e :: e in MergeFiles([], RecyclerFolders(folder, recursive)) ==>
      var p := EffectivePattern(fileDenyPattern, repo.config.fileNameDenyPattern);
      (e in r <==> IsEmpty(p) || !matches(p, e.value.name))
  {
    var pattern := EffectivePattern(fileDenyPattern, repo.config.fileNameDenyPattern);
    var files := MergeFiles([], RecyclerFolders(folder, recursive));
    if !IsEmpty(pattern) then
      FilterValues(files, (f: File) => !matches(pattern, f.name))
    else files
  }

  /** `getLastMove`: the file's `last_move` column, or 0 without a row. */
  function LastMove(table: SysFileTable, f: File): (r: int)
    ensures f.uid !in table ==> r == 0
    ensures f.uid in table ==> r == table[f.uid].lastMove
  {
    if f.uid in table then table[f.uid].lastMove else 0
  }
}

=== FILE: language_labels.dfy ===
/** LanguageLabels: the label files the backend module loads and the label
    keys it uses, some of which moved between TYPO3 versions. */
module LanguageLabels {
  import opened Seqs
  import Text
  import TranslateViewHelper

  const CoreFile: string := "locallang_core.xlf"
  const MiscFile: string := "locallang_misc.xlf"

  /** The same locations the `translate` view helper rewrites legacy keys to. */
  const CoreLabels: string := TranslateViewHelper.CorePath + CoreFile
  const MiscLabels: string := TranslateViewHelper.CorePath + MiscFile
  const FileListLabels: string := TranslateViewHelper.FileListPath + TranslateViewHelper.FileListLabels
  const CleanupLabels: string := "EXT:wv_file_cleanup/Resources/Private/Language/" + "locallang_mod_cleanup.xlf"

  /** `getControllerLanguageLabelFiles()`: four distinct files, core first
      and the extension's own last. */
  function ControllerLanguageLabelFiles(): (r: seq<string>)
    ensures |r| == 4 && Distinct(r)
    ensures r[0] == CoreLabels && r[3] == CleanupLabels
  {
    assert CoreLabels[4] == MiscLabels[4] == 'c';
    assert FileListLabels[4] == 'f';
    assert CleanupLabels[4] == 'w';
    assert CoreLabels[|TranslateViewHelper.CorePath| + 10] != MiscLabels[|TranslateViewHelper.CorePath| + 10];
    [CoreLabels, MiscLabels, FileListLabels, CleanupLabels]
  }

  /** `getDisplayThumbsLabel()`: the file list's `displayThumbs` before
      TYPO3 12, core's `labels.view.showThumbnails` from 12 on. */
  function DisplayThumbsLabel(majorVersion: int): (r: string)
    ensures r == "displayThumbs" <==> majorVersion < 12
    ensures r == "labels.view.showThumbnails" <==> majorVersion >= 12
  {
    if majorVersion < 12 then "displayThumbs" else "labels.view.showThumbnails"
  }

  const SearchFoldersRecursiveLabel: string := "search_folders_recursive"
  const OneLevelUpLabel: string := "labels.upOneLevel"
  const MissingFolderPermissionsMessage: string := "missingFolderPermissionsMessage"
  const MissingFolderPermissionsTitle: string := "missingFolderPermissionsTitle"
  const FolderNotFoundMessage: string := "folderNotFoundMessage"
  const FolderNotFoundTitle: string := "folderNotFoundTitle"

  /** On TYPO3 9 and later a legacy key for one of the three core label files
      is rewritten to a file the controller loads. */
  lemma LegacyKeysReachLoadedFiles(branch: string, name: string, labelKey: string)
    requires TranslateViewHelper.MainVersion(branch) != "7" && TranslateViewHelper.MainVersion(branch) != "8"
    requires name == CoreFile || name == MiscFile || name == TranslateViewHelper.FileListLabels
    requires '/' !in labelKey
    ensures var key := TranslateViewHelper.LegacyPrefix + name + ":" + labelKey;
      var newKey := TranslateViewHelper.RewriteLegacyKey(key, key, branch).0;
      exists f :: f in ControllerLanguageLabelFiles() && newKey == "LLL:" + f + ":" + labelKey
  {
    var file := name + ":" + labelKey;
    var key := TranslateViewHelper.LegacyPrefix + name + ":" + labelKey;
    assert key == TranslateViewHelper.LegacyPrefix + file;
    RewriteLegacyFile(file, branch);
    var path := HomePath(name, labelKey);
    var f := path + name;
    assert f in ControllerLanguageLabelFiles();
    var newKey := TranslateViewHelper.RewriteLegacyKey(key, key, branch).0;
    assert newKey == "LLL:" + path + file;
    Regroup("LLL:", path, name, ":", labelKey);
    assert newKey == "LLL:" + f + ":" + labelKey;
  }

  lemma Regroup(a: string, b: string, c: string, d: string, e: string)
    ensures a + b + (c + d + e) == a + (b + c) + d + e
  {
  }

  /** The location the rewrite picks for one of the three core label files on
      TYPO3 9 and later; with the file name it is one of the loaded files. */
  function HomePath(name: string, labelKey: string): (path: string)
    requires name == CoreFile || name == MiscFile || name == TranslateViewHelper.FileListLabels
    ensures TranslateViewHelper.FileListLabels <= name + ":" + labelKey <==> path == TranslateViewHelper.FileListPath
    ensures path == TranslateViewHelper.FileListPath || path == TranslateViewHelper.CorePath
    ensures path + name in ControllerLanguageLabelFiles()
  {
    var file := name + ":" + labelKey;
    if name == TranslateViewHelper.FileListLabels then
      assert TranslateViewHelper.FileListLabels <= file;
      TranslateViewHelper.FileListPath
    else
      assert !(TranslateViewHelper.FileListLabels <= file) by {
        if name == CoreFile {
          assert file[10] == 'c';
        } else {
          assert file[11] == 'i';
        }
      }
      TranslateViewHelper.CorePath
  }

  /** A legacy key whose file part has no `/` is rewritten to that file part
      under the branch's location. */
  lemma RewriteLegacyFile(file: string, branch: string)
    requires '/' !in file
    ensures var key := TranslateViewHelper.LegacyPrefix + file;
      TranslateViewHelper.RewriteLegacyKey(key, key, branch).0
        == "LLL:" + TranslateViewHelper.LangFilesPath(TranslateViewHelper.MainVersion(branch), file) + file
  {
    var key := TranslateViewHelper.LegacyPrefix + file;
    assert key == "LLL:EXT:lang" + "/" + file;
    Text.AfterLastUnique(key, '/', "LLL:EXT:lang", file);
  }
}

=== FILE: php_array.dfy ===
/** Ordered PHP arrays with unique keys, as `seq<Entry<K, V>>`: the key/value
    pairs in insertion order. The model needs lookup, `+=` (union that keeps
    the left operand's value for a shared key) and key-preserving
    `array_filter`. */
module PhpArray {
  import opened Wrappers
  import opened Seqs

  /** One `key => value` pair. */
  datatype Entry<K, V> = Entry(key: K, value: V)

  /** The keys present in `a`. */
  function Keys<K(==,!new), V(==,!new)>(a: seq<Entry<K, V>>): (ks: set<K>)
    ensures forall e :: e in a ==> e.key in ks
    ensures forall k :: k in ks ==> exists v :: Entry(k, v) in a
  {
    set e | e in a :: e.key
  }

  /** No key occurs twice: the shape every PHP array has. */
  predicate DistinctKeys<K(==), V>(a: seq<Entry<K, V>>) {
    forall i, j :: 0 <= i < j < |a| ==> a[i].key != a[j].key
  }

  /** A PHP array: pairs in insertion order, each key at most once. */
  type Array<K(==), V> = a: seq<Entry<K, V>> | DistinctKeys(a) witness []

  /** `$a[$k] ?? null`: the value stored under `k`, if any. */
  function Get<K(==), V(==)>(a: seq<Entry<K, V>>, k: K): (r: Option<V>)
    ensures r.Some? ==> Entry(k, r.value) in a
    ensures r.None? ==> forall e :: e in a ==> e.key != k
  {
    if a == [] then None
    else if a[0].key == k then Some(a[0].value)
    else Get(a[1..], k)
  }

  /** In an array with unique keys, a stored pair is what lookup finds. */
  lemma {:induction false} GetFinds<K, V>(a: seq<Entry<K, V>>, k: K, v: V)
    requires DistinctKeys(a)
    requires Entry(k, v) in a
    ensures Get(a, k) == Some(v)
    decreases |a|
  {
    if a[0] != Entry(k, v) {
      assert a[0].key != k by {
        var i :| 0 <= i < |a| && a[i] == Entry(k, v);
        assert i != 0;
      }
      assert Entry(k, v) in a[1..] by {
        var i :| 0 <= i < |a| && a[i] == Entry(k, v);
        assert a[1..][i - 1] == a[i];
      }
      GetFinds(a[1..], k, v);
    }
  }

  /** Key-preserving `array_filter` on values, keeps the order. */
  function FilterValues<K(==,!new), V(==,!new)>(a: seq<Entry<K, V>>, p: V -> bool): (r: seq<Entry<K, V>>)
    ensures forall e :: e in r <==> e in a && p(e.value)
    ensures DistinctKeys(a) ==> DistinctKeys(r)
  {
    FilterKeepsDistinctKeys(a, (e: Entry<K, V>) => p(e.value));
    Filter(a, (e: Entry<K, V>) => p(e.value))
  }

  lemma {:induction false} FilterKeepsDistinctKeys<K(!new), V(!new)>(a: seq<Entry<K, V>>, p: Entry<K, V> -> bool)
    ensures DistinctKeys(a) ==> DistinctKeys(Filter(a, p))
    decreases |a|
  {
    if a != [] && DistinctKeys(a) {
      FilterKeepsDistinctKeys(a[1..], p);
      var rest := Filter(a[1..], p);
      assert forall e :: e in rest ==> e.key != a[0].key by {
        forall e | e in rest ensures e.key != a[0].key {
          var i :| 0 <= i < |a[1..]| && a[1..][i] == e;
          assert a[i + 1] == e;
        }
      }
      if p(a[0]) {
        var r := [a[0]] + rest;
        forall i, j | 0 <= i < j < |r| ensures r[i].key != r[j].key {
          if i == 0 {
            assert r[j] in rest;
          } else {
            assert r[i] == rest[i - 1] && r[j] == rest[j - 1];
          }
        }
      }
    }
  }

  /** The values in iteration order (`foreach ($a as $v)`). */
  function Values<K, V>(a: seq<Entry<K, V>>): (vs: seq<V>)
    ensures |vs| == |a|
    ensures forall i :: 0 <= i < |a| ==> vs[i] == a[i].value
  {
    Map(a, (e: Entry<K, V>) => e.value)
  }

  /** A value is listed exactly when some entry holds it. */
  lemma ValuesMembership<K, V>(a: seq<Entry<K, V>>, v: V)
    ensures v in Values(a) <==> exists e :: e in a && e.value == v
  {
    if v in Values(a) {
      var i :| 0 <= i < |a| && Values(a)[i] == v;
      assert a[i] in a;
    }
  }

  /** PHP's `$a += $b`: `a` followed by the pairs of `b` whose key `a` lacks. */
  function UnionAssign<K(==,!new), V(==,!new)>(a: seq<Entry<K, V>>, b: seq<Entry<K, V>>): (r: seq<Entry<K, V>>)
    requires DistinctKeys(a) && DistinctKeys(b)
    ensures DistinctKeys(r)
    ensures a <= r
    ensures Keys(r) == Keys(a) + Keys(b)
    ensures forall e :: e in r <==> e in a || (e in b && e.key !in Keys(a))
  {
    var ka := Keys(a);
    var rest := Filter(b, (e: Entry<K, V>) => e.key !in ka);
    FilterKeepsDistinctKeys(b, (e: Entry<K, V>) => e.key !in ka);
    var r := a + rest;
    forall i, j | 0 <= i < j < |r| ensures r[i].key != r[j].key {
      if j >= |a| && i < |a| {
        assert r[j] in rest;
        assert r[i] in a;
      } else if i >= |a| {
        assert r[i] == rest[i - |a|] && r[j] == rest[j - |a|];
      }
    }
    assert Keys(r) == Keys(a) + Keys(b) by {
      forall k | k in Keys(b) && k !in Keys(a) ensures k in Keys(r) {
        var v :| Entry(k, v) in b;
        assert Entry(k, v) in rest;
      }
    }
    r
  }

  /** `+=` is left-biased: a key already in `a` keeps `a`'s value, any other
      key takes `b`'s. */
  lemma UnionAssignGet<K(!new), V(!new)>(a: seq<Entry<K, V>>, b: seq<Entry<K, V>>, k: K)
    requires DistinctKeys(a) && DistinctKeys(b)
    ensures Get(UnionAssign(a, b), k) == if k in Keys(a) then Get(a, k) else Get(b, k)
  {
    var r := UnionAssign(a, b);
    if k in Keys(a) {
      var v :| Entry(k, v) in a;
      GetFinds(a, k, v);
      GetFinds(r, k, v);
    } else if k in Keys(b) {
      var v :| Entry(k, v) in b;
      GetFinds(b, k, v);
      GetFinds(r, k, v);
    } else {
      assert Get(r, k).None?;
    }
  }
}

=== FILE: resource.dfy ===
/** The host framework's file abstraction as plain values: files, the folder
    tree of a storage, and the database tables the extension reads or writes.
    Everything here is owned by the framework; the extension only reads it
    and asks for moves, deletes and one column update. */
module Resource {
  import opened PhpArray

  /** Name of the holding folder that files are moved into. */
  const RecyclerName: string := "_recycler_"

  /** The concrete class behind a `FileInterface`. */
  datatype FileKind = PlainFile | ProcessedFile | FileReference

  /** A file as the extension sees it through the resource API. */
  datatype File = File(
    kind: FileKind,
    uid: int,
    identifier: string,
    name: string,
    extension: string,
    /** combined identifier (`storage:path`) of the parent folder */
    parentIdentifier: string,
    parentName: string,
    publicUrl: string,
    modificationTime: int)

  /** A folder with the file listing `getFiles()` returns (keyed as the
      storage keys it) and its direct sub folders. */
  datatype Folder = Folder(
    name: string,
    identifier: string,
    files: Array<string, File>,
    subfolders: seq<Folder>)

  /** Every folder below `f`, in pre-order: the recursive folder listing. */
  function Descendants(f: Folder): seq<Folder>
    decreases f
  {
    DescendantsOf(f.subfolders)
  }

  function DescendantsOf(cs: seq<Folder>): seq<Folder>
    decreases cs
  {
    if cs == [] then []
    else [cs[0]] + Descendants(cs[0]) + DescendantsOf(cs[1..])
  }

  /** `d` lies somewhere below `root`. */
  ghost predicate IsBelow(root: Folder, d: Folder)
    decreases root
  {
    exists c :: c in root.subfolders && (c == d || IsBelow(c, d))
  }

  /** The recursive listing holds exactly the folders below the root. */
  lemma {:induction false} DescendantsAreBelow(root: Folder, d: Folder)
    ensures d in Descendants(root) <==> IsBelow(root, d)
    decreases root
  {
    DescendantsOfAreBelow(root.subfolders, d);
  }

  lemma {:induction false} DescendantsOfAreBelow(cs: seq<Folder>, d: Folder)
    ensures d in DescendantsOf(cs) <==> exists c :: c in cs && (c == d || IsBelow(c, d))
    decreases cs
  {
    if cs != [] {
      DescendantsAreBelow(cs[0], d);
      DescendantsOfAreBelow(cs[1..], d);
      assert forall c :: c in cs <==> c == cs[0] || c in cs[1..];
    }
  }
}

=== FILE: resource_storage_listener.dfy ===
/** ResourceStorageListener: after the framework moves a file, stamp the
    file's `sys_file` row with the time of the move. */
module ResourceStorageListener {
  import opened Resource
  import opened Database
  import FileRepository

  /** `postFileMove(event)` for a moved `file` at time `now`: `UPDATE sys_file
      SET last_move = now WHERE uid = file.uid`, only when the moved object
      is a `File` (not a processed file or a file reference). */
  function PostFileMove(table: SysFileTable, moved: File, now: int): (t: SysFileTable)
    ensures t.Keys == table.Keys
    ensures moved.kind != PlainFile ==> t == table
    ensures forall u :: u in table && u != moved.uid ==> t[u] == table[u]
    ensures moved.kind == PlainFile && moved.uid in table ==>
      t[moved.uid] == table[moved.uid].(lastMove := now)
  {
    if moved.kind == PlainFile && moved.uid in table then
      table[moved.uid := table[moved.uid].(lastMove := now)]
    else table
  }

  /** The stamp is what `getLastMove` later reads for that file. */
  lemma StampIsReadBack(table: SysFileTable, moved: File, now: int)
    requires moved.kind == PlainFile && moved.uid in table
    ensures FileRepository.LastMove(PostFileMove(table, moved, now), moved) == now
  {
  }
}

=== FILE: seqs.dfy ===
/** Sequence operations the model needs: PHP's `array_filter` (on lists),
    `array_unique`, `array_map`, and the facts that relate them. */
module Seqs {

  /** The elements of `s` that satisfy `p`, in their original order. */
  function Filter<T(!new)>(s: seq<T>, p: T -> bool): (r: seq<T>)
    ensures |r| <= |s|
    ensures forall x :: x in r <==> x in s && p(x)
    decreases |s|
  {
    if s == [] then []
    else (if p(s[0]) then [s[0]] else []) + Filter(s[1..], p)
  }

  /** `a` can be obtained from `b` by deleting elements. */
  ghost predicate IsSubsequence<T>(a: seq<T>, b: seq<T>)
    decreases |b|
  {
    if a == [] then true
    else if b == [] then false
    else (a[0] == b[0] && IsSubsequence(a[1..], b[1..])) || IsSubsequence(a, b[1..])
  }

  /** Filtering keeps the relative order of the survivors. */
  lemma {:induction false} FilterIsSubsequence<T(!new)>(s: seq<T>, p: T -> bool)
    ensures IsSubsequence(Filter(s, p), s)
    decreases |s|
  {
    if s != [] {
      FilterIsSubsequence(s[1..], p);
      var rest := Filter(s[1..], p);
      if p(s[0]) {
        assert Filter(s, p) == [s[0]] + rest;
        assert ([s[0]] + rest)[1..] == rest;
      } else {
        assert Filter(s, p) == rest;
        if rest != [] {
          assert IsSubsequence(rest, s[1..]);
        }
      }
    }
  }

  /** The conjunction of two predicates. */
  function And<T>(p: T -> bool, q: T -> bool): T -> bool {
    x => p(x) && q(x)
  }

  /** Two filters applied one after the other are one filter by the conjunction. */
  lemma {:induction false} FilterFilter<T(!new)>(s: seq<T>, p: T -> bool, q: T -> bool)
    ensures Filter(Filter(s, p), q) == Filter(s, And(p, q))
    decreases |s|
  {
    if s != [] {
      FilterFilter(s[1..], p, q);
      FilterAppend((if p(s[0]) then [s[0]] else []), Filter(s[1..], p), q);
    }
  }

  /** Filtering distributes over concatenation. */
  lemma {:induction false} FilterAppend<T(!new)>(a: seq<T>, b: seq<T>, p: T -> bool)
    ensures Filter(a + b, p) == Filter(a, p) + Filter(b, p)
    decreases |a|
  {
    if a == [] {
      assert a + b == b;
    } else {
      assert (a + b)[0] == a[0];
      assert (a + b)[1..] == a[1..] + b;
      FilterAppend(a[1..], b, p);
      var head := if p(a[0]) then [a[0]] else [];
      calc {
        Filter(a + b, p);
        head + Filter(a[1..] + b, p);
        head + (Filter(a[1..], p) + Filter(b, p));
        (head + Filter(a[1..], p)) + Filter(b, p);
      }
    }
  }

  /** A filter whose predicate agrees on every element of `s` gives the same result. */
  lemma {:induction false} FilterCongruent<T(!new)>(s: seq<T>, p: T -> bool, q: T -> bool)
    requires forall x :: x in s ==> (p(x) <==> q(x))
    ensures Filter(s, p) == Filter(s, q)
    decreases |s|
  {
    if s != [] {
      FilterCongruent(s[1..], p, q);
    }
  }

  /** Applies `f` to every element (PHP's `array_map` on a list). */
  function Map<T, U>(s: seq<T>, f: T -> U): (r: seq<U>)
    ensures |r| == |s|
    ensures forall i :: 0 <= i < |s| ==> r[i] == f(s[i])
  {
    seq(|s|, i requires 0 <= i < |s| => f(s[i]))
  }

  /** Mapping a list with a new head maps the head, then the rest. */
  lemma MapCons<T, U>(x: T, s: seq<T>, f: T -> U)
    ensures Map([x] + s, f) == [f(x)] + Map(s, f)
  {
    assert forall i :: 0 < i <= |s| ==> ([x] + s)[i] == s[i - 1];
  }

  /** No value occurs twice. */
  predicate Distinct<T(==)>(s: seq<T>) {
    forall i, j :: 0 <= i < j < |s| ==> s[i] != s[j]
  }

  /** Appends to `acc`, in order, each element of `s` not seen before. */
  function DedupInto<T(==,!new)>(acc: seq<T>, s: seq<T>): (r: seq<T>)
    ensures acc <= r
    ensures forall x :: x in r <==> x in acc || x in s
    ensures Distinct(acc) ==> Distinct(r)
    decreases |s|
  {
    if s == [] then acc
    else DedupInto(if s[0] in acc then acc else acc + [s[0]], s[1..])
  }

  /** PHP's `array_unique` on a list: the first occurrence of each value, in order. */
  function Unique<T(==,!new)>(s: seq<T>): (r: seq<T>)
    ensures Distinct(r)
    ensures forall x :: x in r <==> x in s
    ensures |r| <= |s|
  {
    UniqueLength(s);
    DedupInto([], s)
  }

  lemma {:induction false} DedupIntoLength<T(!new)>(acc: seq<T>, s: seq<T>)
    ensures |DedupInto(acc, s)| <= |acc| + |s|
    decreases |s|
  {
    if s != [] {
      DedupIntoLength(if s[0] in acc then acc else acc + [s[0]], s[1..]);
    }
  }

  lemma UniqueLength<T(!new)>(s: seq<T>)
    ensures |DedupInto([], s)| <= |s|
  {
    DedupIntoLength([], s);
  }

  /** Deduplicating a concatenation is deduplicating its parts in turn. */
  lemma {:induction false} DedupIntoAppend<T(!new)>(acc: seq<T>, a: seq<T>, b: seq<T>)
    ensures DedupInto(acc, a + b) == DedupInto(DedupInto(acc, a), b)
    decreases |a|
  {
    if a == [] {
      assert a + b == b;
    } else {
      var acc' := if a[0] in acc then acc else acc + [a[0]];
      assert (a + b)[0] == a[0];
      assert (a + b)[1..] == a[1..] + b;
      assert DedupInto(acc, a + b) == DedupInto(acc', a[1..] + b);
      assert DedupInto(acc, a) == DedupInto(acc', a[1..]);
      DedupIntoAppend(acc', a[1..], b);
    }
  }

  /** Deduplication leaves a list without repetitions unchanged. */
  lemma {:induction false} DedupIntoOfDistinct<T(!new)>(acc: seq<T>, s: seq<T>)
    requires Distinct(acc + s)
    ensures DedupInto(acc, s) == acc + s
    decreases |s|
  {
    if s != [] {
      assert s[0] == (acc + s)[|acc|];
      assert s[0] !in acc by {
        forall i | 0 <= i < |acc| ensures acc[i] != s[0] {
          assert acc[i] == (acc + s)[i];
        }
      }
      assert (acc + [s[0]]) + s[1..] == acc + s;
      DedupIntoOfDistinct(acc + [s[0]], s[1..]);
    }
  }

  /** `Unique(a + b)` keeps a repetition-free `a` as its prefix: the merged
      list only grows at its end. */
  lemma UniqueExtends<T(!new)>(a: seq<T>, b: seq<T>)
    requires Distinct(a)
    ensures a <= Unique(a + b)
  {
    DedupIntoAppend([], a, b);
    assert [] + a == a;
    DedupIntoOfDistinct([], a);
  }
}

=== FILE: text.dfy ===
/** String primitives of PHP that the model needs, written out on `seq<char>`:
    `empty()`, `strpos`/`strrpos`, `explode` with a limit of two, `substr`
    after a separator, `trim`, `strtoupper`, and integer-to-string
    conversion (string concatenation of an `int`). */
module Text {
  import opened Wrappers

  /** PHP's `empty()` on a string: both "" and "0" count as empty. */
  predicate IsEmpty(s: string) {
    s == "" || s == "0"
  }

  /** Position of the first `c` in `s` (PHP's `strpos`, `None` for `false`). */
  function IndexOf(s: string, c: char): (r: Option<nat>)
    ensures r.None? <==> c !in s
    ensures r.Some? ==> r.value < |s| && s[r.value] == c && c !in s[..r.value]
  {
    if s == [] then None
    else if s[0] == c then Some(0)
    else match IndexOf(s[1..], c)
      case None => None
      case Some(k) =>
        assert s[..k + 1] == [s[0]] + s[1..][..k];
        Some(k + 1)
  }

  /** Position of the last `c` in `s` (PHP's `strrpos`, `None` for `false`). */
  function LastIndexOf(s: string, c: char): (r: Option<nat>)
    ensures r.None? <==> c !in s
    ensures r.Some? ==> r.value < |s| && s[r.value] == c && c !in s[r.value + 1..]
    decreases |s|
  {
    if s == [] then None
    else if s[|s| - 1] == c then Some(|s| - 1)
    else
      var init := s[..|s| - 1];
      assert s == init + [s[|s| - 1]];
      match LastIndexOf(init, c)
      case None => None
      case Some(k) =>
        assert s[k + 1..] == init[k + 1..] + [s[|s| - 1]];
        Some(k)
  }

  /** PHP's `explode(c, s, 2)`: the text before the first `c` and, when there
      is one, the text after it. */
  function SplitAtFirst(s: string, c: char): (r: (string, Option<string>))
    ensures c !in r.0
    ensures r.1.None? <==> c !in s
    ensures r.1.None? ==> r.0 == s
    ensures r.1.Some? ==> s == r.0 + [c] + r.1.value
  {
    match IndexOf(s, c)
    case None => (s, None)
    case Some(k) =>
      assert s == s[..k] + [c] + s[k + 1..];
      (s[..k], Some(s[k + 1..]))
  }

  /** The split is the only way to write `s` as a `c`-free head, `c`, and a tail. */
  lemma SplitAtFirstUnique(s: string, c: char, head: string, tail: string)
    requires s == head + [c] + tail
    requires c !in head
    ensures SplitAtFirst(s, c) == (head, Some(tail))
  {
    var r := SplitAtFirst(s, c);
    assert c in s by { assert s[|head|] == c; }
    var h := r.0;
    var t := r.1.value;
    assert s == h + [c] + t;
    assert s[|h|] == c && s[|head|] == c;
    assert forall k :: 0 <= k < |head| ==> s[k] == head[k] != c;
    assert forall k :: 0 <= k < |h| ==> s[k] == h[k] != c;
    assert h == s[..|h|] == head;
    assert t == s[|h| + 1..] == tail;
  }

  /** PHP's `substr(s, strrpos(s, c) + 1)`: the text after the last `c`. */
  function AfterLast(s: string, c: char): (r: string)
    requires c in s
    ensures c !in r
    ensures |r| < |s| && s[|s| - |r| - 1] == c && s[|s| - |r|..] == r
  {
    var k := LastIndexOf(s, c).value;
    s[k + 1..]
  }

  /** The text after the last `c` is whatever follows a `c` and holds none. */
  lemma AfterLastUnique(s: string, c: char, init: string, last: string)
    requires s == init + [c] + last && c !in last
    ensures AfterLast(s, c) == last
  {
    var r := AfterLast(s, c);
    assert s[|s| - |last| - 1] == c;
    assert forall k :: |s| - |last| <= k < |s| ==> s[k] == last[k - (|s| - |last|)];
    assert forall k :: |s| - |r| <= k < |s| ==> s[k] == r[k - (|s| - |r|)];
    assert |r| == |last|;
    assert s[|s| - |last|..] == last;
  }

  /** Characters PHP's `trim` removes by default. */
  predicate IsTrimmed(ch: char) {
    ch == ' ' || ch == '\t' || ch == '\n' || ch == '\r' || ch == '\0' || ch == '\U{000B}'
  }

  function TrimLeft(s: string): (r: string)
    ensures |r| <= |s| && r == s[|s| - |r|..]
    ensures forall i :: 0 <= i < |s| - |r| ==> IsTrimmed(s[i])
    ensures r == [] || !IsTrimmed(r[0])
  {
    if s != [] && IsTrimmed(s[0]) then TrimLeft(s[1..]) else s
  }

  function TrimRight(s: string): (r: string)
    ensures |r| <= |s| && r == s[..|r|]
    ensures forall i :: |r| <= i < |s| ==> IsTrimmed(s[i])
    ensures r == [] || !IsTrimmed(r[|r| - 1])
  {
    if s != [] && IsTrimmed(s[|s| - 1]) then TrimRight(s[..|s| - 1]) else s
  }

  /** `s` is `r` at offset `i`, with only trimmable characters around it. */
  predicate TrimsTo(s: string, r: string, i: nat) {
    && i + |r| <= |s|
    && r == s[i..i + |r|]
    && (forall k :: 0 <= k < i ==> IsTrimmed(s[k]))
    && (forall k :: i + |r| <= k < |s| ==> IsTrimmed(s[k]))
  }

  /** PHP's `trim`: `s` without leading and trailing whitespace. */
  function Trim(s: string): (r: string)
    ensures exists i: nat :: TrimsTo(s, r, i)
    ensures r == [] || (!IsTrimmed(r[0]) && !IsTrimmed(r[|r| - 1]))
    ensures (s == [] || (!IsTrimmed(s[0]) && !IsTrimmed(s[|s| - 1]))) ==> r == s
  {
    var left := TrimLeft(s);
    var r := TrimRight(left);
    TrimBoth(s, left, r);
    TrimLeftKeeps(s);
    TrimRightKeeps(s);
    r
  }

  /** A suffix after trimmable characters, cut to a prefix before trimmable
      characters, is a slice with only trimmable characters around it. */
  lemma TrimBoth(s: string, left: string, r: string)
    requires |left| <= |s| && left == s[|s| - |left|..]
    requires forall k :: 0 <= k < |s| - |left| ==> IsTrimmed(s[k])
    requires |r| <= |left| && r == left[..|r|]
    requires forall k :: |r| <= k < |left| ==> IsTrimmed(left[k])
    ensures TrimsTo(s, r, |s| - |left|)
  {
    var i := |s| - |left|;
    assert r == s[i..i + |r|];
    forall k | i + |r| <= k < |s| ensures IsTrimmed(s[k]) {
      assert s[k] == left[k - i];
    }
  }

  /** Nothing is cut from the left of a string that starts untrimmable. */
  lemma TrimLeftKeeps(s: string)
    ensures (s == [] || !IsTrimmed(s[0])) ==> TrimLeft(s) == s
  {
  }

  /** Nothing is cut from the right of a string that ends untrimmable. */
  lemma TrimRightKeeps(s: string)
    ensures (s == [] || !IsTrimmed(s[|s| - 1])) ==> TrimRight(s) == s
  {
  }

  /** PHP 8.2's `strtoupper` on one character (locale-independent): ASCII letters only. */
  function UpperChar(ch: char): char {
    if 'a' <= ch <= 'z' then (ch as int - 'a' as int + 'A' as int) as char else ch
  }

  /** PHP 8.2's `strtoupper` (locale-independent): ASCII lower-case letters become upper case. */
  function ToUpper(s: string): (r: string)
    ensures |r| == |s|
    ensures forall i :: 0 <= i < |s| ==> r[i] == UpperChar(s[i])
  {
    seq(|s|, i requires 0 <= i < |s| => UpperChar(s[i]))
  }

  predicate IsDigit(ch: char) {
    '0' <= ch <= '9'
  }

  function DigitChar(d: nat): (ch: char)
    requires d < 10
    ensures IsDigit(ch)
  {
    ('0' as int + d) as char
  }

  /** The value of a string of decimal digits. */
  function ParseDigits(s: string): nat
    requires forall i :: 0 <= i < |s| ==> IsDigit(s[i])
    decreases |s|
  {
    if s == [] then 0
    else
      assert IsDigit(s[|s| - 1]);
      ParseDigits(s[..|s| - 1]) * 10 + (s[|s| - 1] as int - '0' as int)
  }

  /** Decimal notation of a natural number, as PHP prints an `int`. */
  function NatToString(n: nat): (r: string)
    ensures |r| > 0
    ensures forall i :: 0 <= i < |r| ==> IsDigit(r[i])
    ensures ParseDigits(r) == n
  {
    if n < 10 then
      var r := [DigitChar(n)];
      assert r[..0] == [];
      r
    else
      var head := NatToString(n / 10);
      var r := head + [DigitChar(n % 10)];
      assert r[..|r| - 1] == head;
      r
  }

  /** Decimal notation of an integer (PHP's `(string)` of an `int`). */
  function IntToString(i: int): (r: string)
    ensures |r| > 0
    ensures forall k :: 0 <= k < |r| ==> IsDigit(r[k]) || (k == 0 && r[k] == '-')
    ensures r[0] == '-' <==> i < 0
  {
    if i < 0 then "-" + NatToString(-i) else NatToString(i)
  }

  /** Different integers print differently. */
  lemma IntToStringInjective(a: int, b: int)
    requires IntToString(a) == IntToString(b)
    ensures a == b
  {
    if a < 0 {
      assert NatToString(-a) == IntToString(a)[1..] == IntToString(b)[1..] == NatToString(-b);
    }
  }

  /** Prefix comparison of two `head c tail` strings whose heads contain no
      `c` splits into equal heads and prefix tails. */
  lemma PrefixAcrossSeparator(a: string, x: string, b: string, y: string, c: char)
    requires c !in a && c !in b
    ensures (a + [c] + x <= b + [c] + y) <==> (a == b && x <= y)
  {
    var l := a + [c] + x;
    var r := b + [c] + y;
    if l <= r {
      assert l[|a|] == c && r[|b|] == c;
      assert forall k :: 0 <= k < |a| ==> l[k] == a[k] != c;
      assert forall k :: 0 <= k < |b| ==> r[k] == b[k] != c;
      assert |a| == |b|;
      assert a == l[..|a|] == r[..|b|] == b;
      assert x == l[|a| + 1..] && y[..|x|] == r[|b| + 1..][..|x|];
    }
    if a == b && x <= y {
      assert l == (a + [c]) + x && r == (a + [c]) + y;
    }
  }
}

=== FILE: translate_view_helper.dfy ===
/** The `translate` view helper: defaults the id to the key, rewrites keys
    written against the retired `EXT:lang/` location to where the labels
    live in the running TYPO3 branch, and falls back to a default text. */
module TranslateViewHelper {
  import opened Wrappers
  import opened Text

  const LegacyPrefix: string := "LLL:EXT:lang/"
  const FileListLabels: string := "locallang_mod_file_list.xlf"

  /** The label file locations by branch. */
  const Branch7Path: string := "EXT:lang/"
  const Branch8Path: string := "EXT:lang/Resources/Private/Language/"
  const CorePath: string := "EXT:core/Resources/Private/Language/"
  const FileListPath: string := "EXT:filelist/Resources/Private/Language/"

  /** The major part of the branch string (`explode('.', TYPO3_branch)[0]`). */
  function MainVersion(branch: string): (r: string)
    ensures '.' !in r && r <= branch
    ensures r == branch || (|r| < |branch| && branch[|r|] == '.')
  {
    SplitAtFirst(branch, '.').0
  }

  /** Where the labels of `file` live in a branch: branch 7 and 8 keep the
      old extension, later branches split them between `core` and
      `filelist`. */
  function LangFilesPath(mainVersion: string, file: string): (r: string)
    ensures r == FileListPath <==> mainVersion != "7" && mainVersion != "8" && FileListLabels <= file
    ensures r == CorePath <==> mainVersion != "7" && mainVersion != "8" && !(FileListLabels <= file)
    ensures mainVersion == "7" ==> r == Branch7Path
    ensures mainVersion == "8" ==> r == Branch8Path
  {
    if mainVersion == "7" then Branch7Path
    else if mainVersion == "8" then Branch8Path
    else if FileListLabels <= file then FileListPath
    else CorePath
  }

  /** Every location is a directory: it ends with `/`. */
  lemma LangFilesPathIsDirectory(mainVersion: string, file: string)
    ensures var path := LangFilesPath(mainVersion, file);
      |path| > 0 && path[|path| - 1] == '/'
  {
    var path := LangFilesPath(mainVersion, file);
    if path == Branch7Path {
      assert path[8] == '/';
    } else if path == Branch8Path {
      assert path[35] == '/';
    } else if path == FileListPath {
      assert path[39] == '/';
    } else {
      assert path[35] == '/';
    }
  }

  /** The file part of a legacy key: what follows its last `/`. */
  function FilePart(key: string): (file: string)
    requires LegacyPrefix <= key
    ensures '/' !in file && |file| < |key| && key[|key| - |file| - 1] == '/'
  {
    assert key[|LegacyPrefix| - 1] == '/';
    AfterLast(key, '/')
  }

  /** The key and id after the rewrite. A key outside `LLL:EXT:lang/` is left
      alone; otherwise its file part (after the last `/`) moves to the
      branch's location, and the id follows when it equalled the key. */
  function RewriteLegacyKey(key: string, id: string, branch: string): (r: (string, string))
    ensures !(LegacyPrefix <= key) ==> r == (key, id)
    ensures LegacyPrefix <= key ==>
      var file := FilePart(key);
      && r.0 == "LLL:" + LangFilesPath(MainVersion(branch), file) + file
      && r.1 == (if id == key then r.0 else id)
  {
    if LegacyPrefix <= key then
      var file := FilePart(key);
      var rewritten := "LLL:" + LangFilesPath(MainVersion(branch), file) + file;
      (rewritten, if id == key then rewritten else id)
    else (key, id)
  }

  /** The file part of a legacy key survives the rewrite: the new key ends
      with `/` and the same file part. */
  lemma RewriteKeepsFile(key: string, id: string, branch: string)
    requires LegacyPrefix <= key
    ensures var newKey := RewriteLegacyKey(key, id, branch).0;
      '/' in newKey && AfterLast(newKey, '/') == FilePart(key)
  {
    var file := FilePart(key);
    var path := LangFilesPath(MainVersion(branch), file);
    LangFilesPathIsDirectory(MainVersion(branch), file);
    var init := "LLL:" + path[..|path| - 1];
    assert path == path[..|path| - 1] + ['/'];
    assert "LLL:" + path + file == init + ['/'] + file;
    AfterLastUnique(init + ['/'] + file, '/', init, file);
  }

  /** Rewriting is idempotent: a rewritten key is either outside the legacy
      prefix or rewrites to itself. */
  lemma RewriteIdempotent(key: string, id: string, branch: string)
    ensures var (k1, i1) := RewriteLegacyKey(key, id, branch);
      RewriteLegacyKey(k1, i1, branch) == (k1, i1)
  {
    var (k1, i1) := RewriteLegacyKey(key, id, branch);
    if LegacyPrefix <= key {
      RewriteKeepsFile(key, id, branch);
      assert LegacyPrefix <= k1 ==> FilePart(k1) == FilePart(key);
    }
  }

  /** What rendering gives: PHP's `die()` for a missing id, or a text. */
  datatype Rendering = Terminated | Rendered(value: string)

  /** The arguments the helper reads. A missing key behaves as the empty
      string. */
  datatype Arguments = Arguments(key: string, id: Option<string>, default: Option<string>, translateArguments: seq<string>)

  /** `renderStatic(...)`. `translate(id, arguments)` is the localization
      service: the label formatted with the arguments, or `None` for a
      missing label or an `InvalidArgumentException`; `children` is the
      rendered tag content; `vsprintf` formats the fallback. */
  function RenderStatic(args: Arguments, branch: string, translate: (string, seq<string>) -> Option<string>, children: string,
                        vsprintf: (string, seq<string>) -> string): (r: Rendering)
    ensures r.Terminated? <==> args.id.GetOr(args.key) == ""
    ensures r.Rendered? ==>
      var (_, id) := RewriteLegacyKey(args.key, args.id.GetOr(args.key), branch);
      match translate(id, args.translateArguments)
      case Some(text) => r.value == text
      case None =>
        var fallback := args.default.GetOr(children);
        r.value == if args.translateArguments == [] then fallback else vsprintf(fallback, args.translateArguments)
  {
    var id := args.id.GetOr(args.key);
    if id == "" then Terminated
    else
      var (_, id') := RewriteLegacyKey(args.key, id, branch);
      match translate(id', args.translateArguments)
      case Some(text) => Rendered(text)
      case None =>
        var fallback := args.default.GetOr(children);
        Rendered(if args.translateArguments == [] then fallback else vsprintf(fallback, args.translateArguments))
  }

  /** A legacy key given without an id is looked up, with the arguments, at
      the branch's location for its file part. A translation found there is
      the output; only a missing one falls back to the default (or the
      children), which the helper formats itself. */
  lemma LegacyKeyIsTranslatedAtNewHome(args: Arguments, branch: string, translate: (string, seq<string>) -> Option<string>,
                                       children: string, vsprintf: (string, seq<string>) -> string)
    requires args.id.None? && LegacyPrefix <= args.key
    ensures var file := FilePart(args.key);
      var lookup := "LLL:" + LangFilesPath(MainVersion(branch), file) + file;
      var found := translate(lookup, args.translateArguments);
      && (found.Some? ==> RenderStatic(args, branch, translate, children, vsprintf) == Rendered(found.value))
      && (found.None? && args.translateArguments != [] ==>
            RenderStatic(args, branch, translate, children, vsprintf)
              == Rendered(vsprintf(args.default.GetOr(children), args.translateArguments)))
  {
    assert args.key != "";
  }

  /** A key outside the legacy location, given without an id, is looked up
      as it stands, with the arguments. */
  lemma CurrentKeyIsTranslatedAsIs(args: Arguments, branch: string, translate: (string, seq<string>) -> Option<string>,
                                   children: string, vsprintf: (string, seq<string>) -> string)
    requires args.id.None? && args.key != "" && !(LegacyPrefix <= args.key)
    requires translate(args.key, args.translateArguments).Some?
    ensures RenderStatic(args, branch, translate, children, vsprintf)
      == Rendered(translate(args.key, args.translateArguments).value)
  {
  }

  /** A rendering whose id differs from the key never looks the key up:
      only an id equal to the key follows the rewrite. */
  lemma ExplicitIdIsKept(args: Arguments, branch: string)
    requires args.id.Some? && args.id.value != args.key
    ensures RewriteLegacyKey(args.key, args.id.value, branch).1 == args.id.value
  {
  }
}

=== FILE: wrappers.dfy ===
/** Failure-carrying values used wherever the PHP code returns null,
    returns false, or throws instead of producing a value. */
module Wrappers {

  /** A value that may be absent: PHP's `null` or an unset variable. */
  datatype Option<+T> = None | Some(value: T) {

    /** The value, or `default` when absent (PHP's `??`). */
    function GetOr(default: T): T {
      match this
      case Some(v) => v
      case None => default
    }
  }

  /** Either a value or the error that stopped the computation. */
  datatype Result<+T, +E> = Success(value: T) | Failure(error: E)
}
